=== FILE: README.md ===
# stash-it: a verified model of the cache core

stash-it is a key-value cache library. It has three layers:

- **`createCache` (src/createCache.js).** It wraps a storage adapter in a façade. Every item operation (`buildKey`, `getItem`, `getExtra`, `setItem`, `hasItem`, `removeItem`) runs three steps:
  1. The `pre<Method>` hooks rewrite the call's arguments.
  2. The adapter is called once, on the key that `buildKey` produces.
  3. The `post<Method>` hooks rewrite the result.

  Each instance owns its own hook table. `addHook` and `addHooks` update that table in place.
- **`registerPlugins` (src/registerPlugins.js).** It first pushes every plugin's hooks into an instance's table. It then merges the plugins' extension methods into fresh copies of the instance record, one plugin at a time.
- **Item builders and the in-memory store.** There are three generations of `createItem` (src/createItem.js, src/createItem.ts, src-old/createItem.js). The argument validators are in src/validation.js and src/validators/validateExtra.ts. The TypeScript `MemoryAdapter` keeps items in a private record that it updates in place. `StashIt` (src/createCache.ts) forwards each call to that adapter.

The model is written in Dafny, with one module per source file:

| file | module | models |
|---|---|---|
| `js_value.dfy` | `JsValue` | JavaScript values, `typeof`, truthiness, own-property reads, property assignment, `Object.assign` |
| `validation.dfy` | `Validation` | src/validation.js, and the identical copies at the top of src/createCache.js |
| `validate_extra_ts.dfy` | `ValidateExtraTs` | src/validators/validateExtra.ts |
| `create_item_js.dfy` | `CreateItemJs` | src/createItem.js |
| `create_item_ts.dfy` | `CreateItemTs` | src/createItem.ts |
| `create_item_old.dfy` | `CreateItemOld` | src-old/createItem.js |
| `memory_adapter.dfy` | `MemoryStore` | the `MemoryAdapter` class, whose store is a `map` field |
| `stash_it.dfy` | `StashItCache` | the `StashIt` class |
| `create_cache.dfy` | `CreateCache` | the hook table, `passDataThroughHooks`, `getPreData`/`getPostData` and the façade |
| `register_plugins.dfy` | `RegisterPlugins` | plugin validation, hook registration and the extension fold |

How the model represents JavaScript:

- An **object** is the ordered list of its own properties. Key order matters: it decides which colliding extension name is reported, and it decides the result of `Object.assign`.
- A **thrown `Error`**, or a **rejected promise**, is `Err(message)`. A normal return, or a resolved promise, is `Ok`.
- A **façade closure** is `Method(instance, name)`. The record that `createCache` returns holds one such closure per method.
- The **hook table** and the **in-memory store** are fields of classes. The methods that change them declare those classes in `modifies`.

## Model

| member | source | states |
|---|---|---|
| JsValue.Assign | src/createItem.js:17 | `Object.assign`: every key not copied keeps its value; the result's keys are exactly the target's and the source's |
| JsValue.AssignCopiesValues | src/registerPlugins.js:28 | after `Object.assign`, each copied key holds the copied value |
| JsValue.AssignKeepsKeyOrder | src/createItem.js:17 | `Object.assign` keeps the target's keys first, in their order |
| JsValue.CopyIsIdentity | src/registerPlugins.js:28 | copying an object into `{}` gives an equal object |
| Validation.NonArrayObjectIsObj | src/validation.js:5 | the `typeof`/`null`/`Array.isArray` guard admits exactly the plain objects |
| Validation.ValidateAdapter | src/validation.js:4-20 | passes iff the adapter is a plain object that has every required method and whose own keys all hold functions; otherwise one of three messages, in that order of precedence |
| Validation.ExtraPropertyMustBeAFunction | src/validation.js:11 | an adapter that has every required method is still refused when any other own property is not a function |
| Validation.ValidateArgs | src/validation.js:22-30 | passes iff `args` is a plain object with a truthy `cacheInstance`; otherwise the object message comes before the `cacheInstance` message |
| Validation.ValidateMethodName | src/validation.js:32-36 | passes exactly for strings |
| Validation.ValidateExtra | src/validation.js:38-42 | passes exactly for plain objects; functions, arrays and `null` are refused with the backtick message |
| ValidateExtraTs.ValidateExtra | src/validators/validateExtra.ts:1-5 | passes exactly for plain objects, otherwise fails with `'extra' must be an object.` |
| ValidateExtraTs.RejectsEveryNonObject | src/validators/validateExtra.ts:2-3 | strings, numbers, booleans, `undefined`, `null`, arrays and functions are refused; `{}` is accepted |
| ValidateExtraTs.AgreesWithJavaScriptCheck | src/validators/validateExtra.ts:2 | accepts exactly what the JavaScript `validateExtra` accepts |
| CreateItemJs.ValidateExtra | src/createItem.js:1-9 | passes iff `extra` is a plain object without a truthy `namespace`; the shape error comes first |
| CreateItemJs.CreateItem | src/createItem.js:11-19 | builds iff the defaulted `extra` is valid; `key` and `value` are kept; the new `extra` has key `namespace` first and holds exactly `namespace` plus the given keys; `namespace` is the argument unless `extra` has that key |
| CreateItemJs.GivenExtraWins | src/createItem.js:17 | every key of the given `extra` keeps its value in the item, so a falsy `namespace` in `extra` overrides the argument |
| CreateItemTs.CreateItem | src/createItem.ts:18-30 | the key check comes first, then the `extra` check; `ttl` defaults to 3600 and `extra` to `{}`; `key` and `value` are kept |
| CreateItemTs.TtlIsNotChecked | src/createItem.ts:20-22 | whether an item is built does not depend on `ttl` |
| CreateItemOld.CreateItem | src-old/createItem.js:3-12 | the key check comes first; `extra` defaults to `{}`, must be a plain object, and is stored as given |
| MemoryStore.CheckTtl | src/adapters/MemoryAdapter/MemoryAdapter.ts:14-26 | a given `ttl` must be a number, then an integer, then positive, each with its own message; an omitted `ttl` passes |
| MemoryStore.MemoryAdapter.constructor | src/adapters/MemoryAdapter/MemoryAdapter.ts:5 | the store starts empty |
| MemoryStore.MemoryAdapter.SetOutcome | src/adapters/MemoryAdapter/MemoryAdapter.ts:13-31 | rejects with the `ttl` message, or else gives `createItem`'s result; a stored item is for that key and has an integer `ttl` above 0 and an object `extra`; the defaults are `ttl` 3600 and `extra` `{}` |
| MemoryStore.MemoryAdapter.Get | src/adapters/MemoryAdapter/MemoryAdapter.ts:7-11 | the stored item, or `null` when the key is absent |
| MemoryStore.MemoryAdapter.Set | src/adapters/MemoryAdapter/MemoryAdapter.ts:13-31 | on success only the entry for `key` is replaced; on rejection the store is unchanged; every entry stays well formed |
| MemoryStore.MemoryAdapter.Has | src/adapters/MemoryAdapter/MemoryAdapter.ts:33-35 | true iff the key is stored |
| MemoryStore.MemoryAdapter.Delete | src/adapters/MemoryAdapter/MemoryAdapter.ts:37-44 | reports whether the key was stored and removes only that entry |
| MemoryStore.MemoryAdapter.Clear | src/adapters/MemoryAdapter/MemoryAdapter.ts:46-52 | reports the number of stored keys and empties the store |
| StashItCache.StashIt.constructor | src/createCache.ts:17-19 | the wrapper keeps the adapter it was given |
| StashItCache.StashIt.Get | src/createCache.ts:21-23 | the adapter's `get` |
| StashItCache.StashIt.Set | src/createCache.ts:25-27 | the adapter's `set`, with `extra` defaulted to `{}` |
| StashItCache.StashIt.Has | src/createCache.ts:29-31 | the adapter's `has` |
| StashItCache.StashIt.Delete | src/createCache.ts:33-35 | the adapter's `delete` |
| StashItCache.StashIt.Clear | src/createCache.ts:37-39 | the adapter's `clear` |
| StashItCache.SetHasDeleteScenario | src/createCache.ts:14-40 | with a fresh store: `set` then `get` gives the default item; `has` is true; `delete` is true; then `has` is false and a second `delete` is false |
| CreateCache.UpperFirst | src/createCache.js:38-43 | the first character is upper-cased and the rest is unchanged |
| CreateCache.EventNameParts | src/createCache.js:38-43 | an event name is the prefix, then the method name's first character upper-cased, then the rest of the method name; it starts with its prefix, so `addHook` accepts it |
| CreateCache.AddHookTo | src/createCache.js:79-93 | succeeds iff the hook is valid; refuses a non-string event, then an event without `pre`/`post`, then a non-function handler |
| CreateCache.AddHookAppends | src/createCache.js:92 | an accepted handler is appended to its event's list, which starts empty for a new event; the event becomes a key; all other lists are unchanged |
| CreateCache.Cache.AddHook | src/createCache.js:79-93 | the instance's table becomes `AddHookTo`'s result, and is unchanged on failure |
| CreateCache.Cache.AddHooks | src/createCache.js:95-101 | refuses a non-array; otherwise adds the hooks in order until one is refused (the loop invariant ties each prefix to the fold) |
| CreateCache.AddEachStep | src/createCache.js:100 | after a run of accepted hooks, the next hook is either refused, which ends `addHooks` with that error, or added |
| CreateCache.AddEach | src/createCache.js:100 | `hooks.forEach(this.addHook)` on a table: stops at the first refused hook. Its properties are stated by `AddEachStep`, `AddEachAppend`, `AddEachKeepsEarlierHandlers`, `AddingValidHooks` and `InvalidHookStopsAddition` |
| CreateCache.AddHooksTo | src/createCache.js:95-101 | `addHooks` on a table: a non-array is refused before any hook is added; otherwise `AddEach`. `Cache.AddHooks` is proved equal to it |
| CreateCache.AddEachKeepsEarlierHandlers | src/createCache.js:92 | whether or not a hook is refused, every event keeps its earlier handlers, first and in order |
| CreateCache.AddEachAppend | src/createCache.js:100 | adding two runs of hooks is adding the first run, then the second if the first went through |
| CreateCache.AddingValidHooks | src/createCache.js:95-101 | when all hooks are valid, each event's list gains exactly that event's handlers, in array order |
| CreateCache.AddingValidHooksTo | src/createCache.js:95-101 | the same, for one event |
| CreateCache.InvalidHookStopsAddition | src/createCache.js:95-101 | the hooks before a refused one stay added, and the error is that hook's |
| CreateCache.RunHandlers | src/createCache.js:47 | the `reduce` over an event's handlers; `RunHandlersSnoc` states its order and `PassDataThroughHooks` its use |
| CreateCache.RunHandlersSnoc | src/createCache.js:45-49 | the fold applies handlers in registration order: handler_n(… handler_1(args)) |
| CreateCache.PassDataThroughHooks | src/createCache.js:45-49 | `args` itself when the event has no list; otherwise the fold of its handlers |
| CreateCache.AddedHandlerRunsLast | src/createCache.js:92 | after `addHook`, that event's data passes through the new handler last; other events are unaffected |
| CreateCache.HooksOf | src/createCache.js:55 | `args.cacheInstance.getHooks()`: the table of the instance whose closure it is, otherwise the TypeError. `GetPreData`, `GetPostData` and `Cache.PhaseOnRecord` state its use |
| CreateCache.GetPreData | src/createCache.js:51-59 | checks the method name, then `args`, then `getHooks`; then folds the `pre<Method>` handlers of `args.cacheInstance` |
| CreateCache.GetPostData | src/createCache.js:61-69 | the same, for `post<Method>` |
| CreateCache.MapAdapter.constructor | src/createCache.js:73 | the storage adapter starts with an empty store and the given key builder |
| CreateCache.MapAdapter.GetItem | src/createCache.js:117 | `adapter.getItem`: the item stored under the built key, `undefined` when there is none (`Cache.GetItem` states its use) |
| CreateCache.MapAdapter.GetExtra | src/createCache.js:125 | `adapter.getExtra`: the `extra` of the stored item (`Cache.GetExtra` states its use) |
| CreateCache.MapAdapter.HasItem | src/createCache.js:147 | `adapter.hasItem`: whether the built key is stored (`Cache.HasItem` states its use) |
| CreateCache.MapAdapter.SetItem | src/createCache.js:133 | `adapter.setItem`: returns `{key, value, extra}` and stores it under the key, replacing only that entry |
| CreateCache.MapAdapter.RemoveItem | src/createCache.js:155 | `adapter.removeItem`: reports whether the key was stored and removes only that entry |
| CreateCache.NewCache | src/createCache.js:73-76 | refuses an invalid adapter with `validateAdapter`'s message; otherwise returns a fresh instance with an empty table |
| CreateCache.Cache.constructor | src/createCache.js:76 | a new instance's hook table is empty |
| CreateCache.Cache.Record | src/createCache.js:78-164 | the returned record has exactly the nine keys of the object literal, in order and distinct, and each key holds this instance's closure of that name |
| CreateCache.Cache.GetHooks | src/createCache.js:103-105 | the instance's own table, the one its `addHook` changes; `SeparateHookTables` and `RegisterPlugins.ExtendedRecordSharesHookTable` state what it shares and what it does not |
| CreateCache.Cache.PhaseOnRecord | src/createCache.js:55-58 | called with args whose `cacheInstance` is a record of this instance, either phase folds this instance's handlers |
| CreateCache.Cache.BuildKey | src/createCache.js:107-113 | the adapter builds the key from the pre hooks' `key`, and the result is the post hooks' `key`; with no hooks it is exactly the adapter's key |
| CreateCache.Cache.BuildKeyPostHooksOfPreInstance | src/createCache.js:107-113 | when a pre handler puts another instance's record into `cacheInstance`, the post phase runs that instance's handlers, and the result is their `key` |
| CreateCache.Cache.Plan | src/createCache.js:116-117 | the pre phase, then `this.buildKey` of the pre hooks' `key` |
| CreateCache.Cache.Finish | src/createCache.js:118-120 | the post phase over the pre hooks' `cacheInstance`, and the field it returns |
| CreateCache.Cache.FinishOnAnyInstance | src/createCache.js:118-120 | the post phase runs the handlers of whichever instance the post args' `cacheInstance` is a record of, and returns that field of their result |
| CreateCache.Cache.PlanWithoutHooks | src/createCache.js:115-117 | with no hooks, the pre args pass unchanged and the key is the adapter's |
| CreateCache.Cache.FinishWithoutHooks | src/createCache.js:118-120 | with no hooks, the post args pass unchanged |
| CreateCache.Cache.Query | src/createCache.js:115-151 | the adapter answers for the key built from the pre hooks' `key`; the post hooks see that answer with the pre hooks' `cacheInstance` and `key`; with no hooks the result is the adapter's answer |
| CreateCache.Cache.GetItem | src/createCache.js:115-121 | with no hooks, the adapter's item under the built key |
| CreateCache.Cache.GetExtra | src/createCache.js:123-129 | with no hooks, the adapter's `extra` under the built key |
| CreateCache.Cache.HasItem | src/createCache.js:145-151 | with no hooks, whether the adapter holds the built key |
| CreateCache.Cache.SetWithoutHooks | src/createCache.js:131-143 | with no `setItem` or `buildKey` hooks, the pre args pass unchanged: the adapter stores `value` and the defaulted `extra` under its own key, and `setItem` returns the adapter's item |
| CreateCache.Cache.SetItem | src/createCache.js:131-143 | `extra` defaults to `{}`; the adapter stores the pre hooks' `value` and `extra` under the built key, and the post hooks see the stored item; with no hooks the store gains exactly `{key, value, extra}` |
| CreateCache.Cache.RemoveItem | src/createCache.js:153-163 | the adapter removes the built key; the post hooks see whether it was present; with no hooks the result is that flag |
| CreateCache.SetThenGet | src/createCache.js:131-151 | on a fresh cache, `setItem(k, v)` returns the stored item, `getItem(k)` reads it back and `hasItem(k)` is true |
| CreateCache.SeparateHookTables | src/createCache.js:76 | a hook added through one instance is not seen by another |
| RegisterPlugins.ValidateCacheInstance | src/registerPlugins.js:41-45 | passes exactly for plain objects |
| RegisterPlugins.ValidatePlugins | src/registerPlugins.js:47-57 | passes iff `plugins` is an array whose plugins each own `hooks` or `getExtensions`; the array message comes first |
| RegisterPlugins.AddHooksFromPlugins | src/registerPlugins.js:5-9 | each plugin's `hooks` passed to `addHooks` in plugin order, stopping at the first call that throws. Its properties are stated by `AddHooksFromPluginsStep`, `AddHooksFromPluginsAppend`, `PluginHooksAreAddedInOrder` and `PluginWithoutHooksStopsRegistration` |
| RegisterPlugins.AddHooksFromPluginsAppend | src/registerPlugins.js:5-9 | registering two runs of plugins is registering the first, then the second if the first went through |
| RegisterPlugins.AddHooksFromPluginsStep | src/registerPlugins.js:6-8 | after a run of plugins whose hooks went through, the next plugin's `addHooks` either throws, which ends the registration with that error, or goes through |
| RegisterPlugins.AddPluginHooks | src/registerPlugins.js:5-9 | the instance's table ends as the fold over the plugins leaves it, and the result is the fold's error or success |
| RegisterPlugins.PluginHooksAreAddedInOrder | src/registerPlugins.js:5-9 | with hook arrays everywhere, registration adds all hooks in plugin order, then in array order |
| RegisterPlugins.PluginWithoutHooksStopsRegistration | src/registerPlugins.js:7 | a plugin without `hooks` passes `undefined` to `addHooks`, which is refused; the hooks of earlier plugins stay added |
| RegisterPlugins.FirstCollision | src/registerPlugins.js:20-26 | finds the first created name that is already a key, or reports that there is none |
| RegisterPlugins.AddExtensions | src/registerPlugins.js:11-29 | refuses a non-function, then the first colliding name; otherwise the keys are exactly the instance's plus the created ones |
| RegisterPlugins.ExtensionsAreAppended | src/registerPlugins.js:28 | the merged record is the instance's properties followed by the created ones |
| RegisterPlugins.MergeKeepsInstance | src/registerPlugins.js:28 | a merge keeps every instance property and its value, and never repeats a key |
| RegisterPlugins.Contributes | src/registerPlugins.js:33 | the plugin's `getExtensions` is truthy: every function, and every other truthy value, which `addExtensions` then refuses |
| RegisterPlugins.ApplyPlugin | src/registerPlugins.js:32-37 | one `reduce` step: `addExtensions` when `getExtensions` is truthy, otherwise the record unchanged. `ExtensionsAreAppended`, `MergeKeepsInstance` and `EarlierExtensionsAreReserved` state its properties |
| RegisterPlugins.AddExtensionsFromPlugins | src/registerPlugins.js:31-39 | the `reduce` over the plugins from the instance, with the first error ending it. `ExtensionsFoldLeftToRight`, `NoExtensionsKeepInstance`, `ExtendedRecordKeepsInstance` and `ExtendedRecordSharesHookTable` state its properties |
| RegisterPlugins.ExtensionsFoldLeftToRight | src/registerPlugins.js:31-39 | the last plugin is applied to the record that all earlier plugins produced |
| RegisterPlugins.NoExtensionsKeepInstance | src/registerPlugins.js:31-39 | with no truthy `getExtensions`, the instance itself is returned |
| RegisterPlugins.ExtendedRecordKeepsInstance | src/registerPlugins.js:28-38 | the final record keeps every property of the instance, with its value |
| RegisterPlugins.ExtendedRecordSharesHookTable | src/registerPlugins.js:28 | a record extended from an instance's record is still that instance's record: both use the same hook table |
| RegisterPlugins.EarlierExtensionsAreReserved | src/registerPlugins.js:16-26 | a name that an earlier plugin created is refused when a later plugin creates it too |
| RegisterPlugins.Register | src/registerPlugins.js:59-66 | validates the instance, then the plugins; adds every plugin's hooks to the instance's table before any extension is made, and keeps them when a later step throws; an empty plugin list returns the instance; then the extension fold gives the result |

## Where the code and its documented design differ

The documented design is the one the older test suite test/unit/src/createCache/registerPlugins.test.js describes: plugins with `createExtensions` (lines 16, 82, 98-118), a frozen result record (140-153), a single-quoted name in `'createExtensions' must be a function.` (108) and hook tables that differ between the original and the extended record (172-205). The model follows the code in each of these cases:

- **Hook table after `registerPlugins`.** The documented design says `registerPlugins` never touches the original instance and gives the extended record a cloned table. The code adds the hooks to the original instance's own table, in place. The extended record copies the original's `getHooks` closure, so the two share one table (`RegisterPlugins.ExtendedRecordSharesHookTable`).
- **Plugin property name.** The documented design names the property `createExtensions`. The code reads `getExtensions` and calls it with the instance itself, not with a context object. The error texts use the same name.
- **Error quoting.** The documented design quotes a name in a message with `'…'` (line 108). Inside its messages the JavaScript code marks names with backticks (`` `adapter` must be an object. `` at src/createCache.js:6), except `` Extension '<name>' already exists. `` (src/registerPlugins.js:24, `RegisterPlugins.AlreadyExists`), which marks the extension's name with single quotes. The TypeScript files also use single quotes: `'extra'` in src/validators/validateExtra.ts and `'ttl'` in src/adapters/MemoryAdapter/MemoryAdapter.ts. The model keeps each text as written.

Separately from the cases above: `ttl` is checked only by `MemoryAdapter.set` (src/adapters/MemoryAdapter/MemoryAdapter.ts:14-26). `createItem` stores `null`, a `Date` or any other `ttl` as given (src/createItem.ts:9, 20-29; `CreateItemTs.TtlIsNotChecked`).

## Left out

- **Promises.** Asynchrony is not modelled: a resolved promise is `Ok` and a rejected one is `Err`. `MemoryAdapter.set` throws synchronously when `createItem` throws, and the model records that as `Err` just like a rejection.
- **Numbers.** Numbers are finite reals, so NaN, the infinities and `-0` are left out. A `ttl` of 1e21 or more prints in exponent notation in JavaScript; `IntToString` prints every integer in full decimal.
- **`validateKey`.** `validateKey` (src/validators/validateKey) is not part of this model. It is a parameter: any check that returns normally or throws. The `./validation` module of src-old is not part of this model either; the old `createItem` uses src/validation.js's `validateExtra`.
- **Objects.**
  - Only own enumerable string-keyed properties in insertion order are modelled. Prototype lookups, getters, symbol keys, and JavaScript's integer-keys-first ordering are not.
  - Records are values, so reference identity is not modelled. "The very same instance" is value equality, and "the input record is not mutated" holds by construction.
- **Hook handlers.** A handler is a total, pure function from the args record to a new one. Handlers that throw, mutate shared state or are asynchronous are not modelled. Reading a property of a handler's `null` or `undefined` result throws a TypeError in JavaScript; the model reads `undefined`.
- **`toUpperCase`.** Only ASCII letters are upper-cased.
- **The adapter of `createCache`.** It is any object of functions. It is validated as a value, and its behaviour is modelled by `MapAdapter`: an arbitrary `buildKey` function plus a map from built key to `{key, value, extra}`. Adapters that behave differently, or asynchronously, are not modelled.
- **Calls to other functions.** `GetPreData`/`GetPostData` model a `getHooks` that is not a cache instance's own closure as the TypeError of a missing method. Likewise, `RegisterPlugins.Register` models an instance whose `addHooks`/`addHook` are not one cache instance's closures that way. Calling an arbitrary function there is not modelled.
- CreateCache.Cache.BuildKey, GetItem, GetExtra, HasItem, SetItem, RemoveItem: each requires its receiver (`this`) to be a record of the instance. A detached call, such as `const f = cache.getItem; f(k)`, is not modelled.
- CreateCache.Cache.AddHooks: its `this.addHook` (src/createCache.js:100) is modelled as this instance's own `addHook`. A detached call, or an `addHooks` copied onto a record whose `addHook` is another function, is not modelled.
- **Elements of a hook array.** In the model every element of the array given to `addHooks` is a `{ event, handler }` record. An element that is `null` or `undefined` makes the destructuring in `addHook` (src/createCache.js:79) throw a TypeError. That case is not modelled.
- **`getExtensions`.** `getExtensions` (src/registerPlugins.js:16) is modelled as a total, pure function of the record it is given. A `getExtensions` that throws is not modelled. Nor is one that changes state while the extensions are merged, for example by adding hooks to the original table through the copied `addHook` closure.
- **Plugins.** A plugin that is not an object, and a `getExtensions` that returns something other than an object, are not modelled. Plugins are records whose `hooks`/`getExtensions` are either owned or absent.
- The engine-generated TypeError texts (`GET_HOOKS_NOT_FUNCTION`, `ADD_HOOKS_NOT_FUNCTION`, `EMPTY_METHOD_NAME`) are representative only; engines word them differently.

=== FILE: create_cache.dfy ===
/** src/createCache.js: the cache façade. An instance owns a hook table, a map
    from event name to an ordered list of handlers, which `addHook` and
    `addHooks` update in place. Every item operation runs the `pre` hooks of
    its event, makes one adapter call on the key `buildKey` produces, runs the
    `post` hooks and returns what they produce. */
module CreateCache {
  import opened JsValue
  import opened Validation

  const REQUIRED_METHODS: seq<string> := ["buildKey", "getItem", "getExtra", "setItem", "hasItem", "removeItem"]

  const EVENT_NOT_STRING := "Hook's event must be a string."
  const EVENT_WITHOUT_PREFIX := "Hook's event must start with `pre` or `post`."
  const HANDLER_NOT_FUNCTION := "Hook's handler must be a function."
  const HOOKS_NOT_ARRAY := "Hooks need to be passed as an array."
  /** What the engine throws when `args.cacheInstance` has no `getHooks`
      method of a cache instance. */
  const GET_HOOKS_NOT_FUNCTION := "args.cacheInstance.getHooks is not a function"
  /** What the engine throws when `upperFirst` is given the empty string. */
  const EMPTY_METHOD_NAME := "Cannot read properties of undefined (reading 'toUpperCase')"

  /** A hook handler: it receives the args record and returns the next one. */
  type Handler = Value -> Value

  type HookTable = map<string, seq<Handler>>

  /** The `handler` of a hook record: a function, or a value that is not
      one. */
  datatype HandlerArg = Callable(run: Handler) | NotCallable(v: NonFunction)

  /** A hook record `{ event, handler }`. */
  datatype Hook = Hook(event: Value, handler: HandlerArg)

  /** The argument of `addHooks`: an array of hook records, or a value that
      is not an array. */
  datatype HookList = HookArray(hooks: seq<Hook>) | NotHookArray(v: NonArray)

  /** A hook table after a run of additions, and how the run ended. */
  datatype Applied = Applied(table: HookTable, status: Outcome)

  // ---------------------------------------------------------------------
  // Event names

  /** `toUpperCase` of one character, for the ASCII letters. */
  function ToUpper(c: char): char {
    if 'a' <= c <= 'z' then (c as int - 32) as char else c
  }

  function UpperFirst(s: string): (r: string)
    requires s != ""
    ensures |r| == |s| && r[0] == ToUpper(s[0]) && r[1..] == s[1..]
  {
    [ToUpper(s[0])] + s[1..]
  }

  /** `pre` or `post` followed by the method name with its first letter
      upper-cased. */
  function EventName(prefix: string, methodName: string): string
    requires methodName != ""
  {
    prefix + UpperFirst(methodName)
  }

  /** An event name is the prefix, then the method name's first character
      upper-cased, then the rest of the method name; so `addHook` accepts
      every name built with `pre` or `post`. */
  lemma EventNameParts(prefix: string, methodName: string)
    requires methodName != ""
    ensures var e := EventName(prefix, methodName);
            && |e| == |prefix| + |methodName| && StartsWith(e, prefix)
            && e[|prefix|] == ToUpper(methodName[0]) && e[|prefix| + 1..] == methodName[1..]
  {
    var e := EventName(prefix, methodName);
    var u := UpperFirst(methodName);
    assert e == prefix + u;
    assert e[..|prefix|] == prefix;
    assert e[|prefix| + 1..] == u[1..];
  }

  predicate StartsWith(s: string, prefix: string) {
    |prefix| <= |s| && s[..|prefix|] == prefix
  }

  // ---------------------------------------------------------------------
  // The hook table

  function HandlersFor(hooks: HookTable, event: string): seq<Handler> {
    if event in hooks then hooks[event] else []
  }

  /** What `addHook` accepts: a string event starting with `pre` or `post`
      and a function handler. */
  predicate ValidHook(hook: Hook) {
    && hook.event.Str?
    && (StartsWith(hook.event.s, "pre") || StartsWith(hook.event.s, "post"))
    && hook.handler.Callable?
  }

  /** `addHook` on the table `hooks`: checks the event's type, then its
      prefix, then the handler; on success appends the handler to its event's
      list, which starts empty for a new event, and leaves every other list
      as it was. */
  function AddHookTo(hooks: HookTable, hook: Hook): (r: Result<HookTable>)
    ensures r.Ok? <==> ValidHook(hook)
    ensures !hook.event.Str? ==> r == Err(EVENT_NOT_STRING)
    ensures hook.event.Str? && !StartsWith(hook.event.s, "pre") && !StartsWith(hook.event.s, "post") ==>
              r == Err(EVENT_WITHOUT_PREFIX)
    ensures hook.event.Str? && (StartsWith(hook.event.s, "pre") || StartsWith(hook.event.s, "post")) &&
            !hook.handler.Callable? ==>
              r == Err(HANDLER_NOT_FUNCTION)
  {
    if TypeOf(hook.event) != "string" then Err(EVENT_NOT_STRING)
    else if !StartsWith(hook.event.s, "pre") && !StartsWith(hook.event.s, "post") then Err(EVENT_WITHOUT_PREFIX)
    else if !hook.handler.Callable? then Err(HANDLER_NOT_FUNCTION)
    else
      var e := hook.event.s;
      Ok(if e in hooks then hooks[e := hooks[e] + [hook.handler.run]] else hooks[e := [hook.handler.run]])
  }

  /** A hook `addHook` accepts is appended to its event's list, which starts
      empty for a new event; every other list is left as it was. */
  lemma AddHookAppends(hooks: HookTable, hook: Hook)
    requires ValidHook(hook)
    ensures AddHookTo(hooks, hook).value.Keys == hooks.Keys + {hook.event.s}
    ensures HandlersFor(AddHookTo(hooks, hook).value, hook.event.s) ==
              HandlersFor(hooks, hook.event.s) + [hook.handler.run]
    ensures forall e :: e != hook.event.s ==> HandlersFor(AddHookTo(hooks, hook).value, e) == HandlersFor(hooks, e)
  {
  }

  /** `hooks.forEach(this.addHook)`: adds the hooks one at a time, in array
      order, and stops at the first one `addHook` refuses. */
  function AddEach(hooks: HookTable, list: seq<Hook>): Applied
    decreases |list|
  {
    if list == [] then Applied(hooks, Pass)
    else
      match AddHookTo(hooks, list[0])
      case Err(m) => Applied(hooks, Fail(m))
      case Ok(next) => AddEach(next, list[1..])
  }

  /** `addHooks` on the table `hooks`. */
  function AddHooksTo(hooks: HookTable, list: HookList): Applied {
    if !list.HookArray? then Applied(hooks, Fail(HOOKS_NOT_ARRAY)) else AddEach(hooks, list.hooks)
  }

  /** Adding two runs of hooks is adding the first, then, if it went through,
      the second. */
  lemma {:induction false} AddEachAppend(hooks: HookTable, xs: seq<Hook>, ys: seq<Hook>)
    ensures AddEach(hooks, xs + ys) ==
      var first := AddEach(hooks, xs);
      if first.status.Fail? then first else AddEach(first.table, ys)
    decreases |xs|
  {
    if xs == [] {
      assert xs + ys == ys;
    } else {
      assert (xs + ys)[0] == xs[0] && (xs + ys)[1..] == xs[1..] + ys;
      match AddHookTo(hooks, xs[0])
      case Err(_) =>
      case Ok(next) => AddEachAppend(next, xs[1..], ys);
    }
  }

  /** `addHooks` only appends: whether or not a hook is refused, every event
      keeps the handlers it had, first and in their order. */
  lemma {:induction false} AddEachKeepsEarlierHandlers(hooks: HookTable, list: seq<Hook>, e: string)
    ensures var before, after := HandlersFor(hooks, e), HandlersFor(AddEach(hooks, list).table, e);
            |before| <= |after| && after[..|before|] == before
    decreases |list|
  {
    if list != [] && AddHookTo(hooks, list[0]).Ok? {
      var next := AddHookTo(hooks, list[0]).value;
      AddHookAppends(hooks, list[0]);
      AddEachKeepsEarlierHandlers(next, list[1..], e);
      var a, b, c := HandlersFor(hooks, e), HandlersFor(next, e), HandlersFor(AddEach(next, list[1..]).table, e);
      assert b[..|a|] == a;
      assert c[..|a|] == c[..|b|][..|a|];
    }
  }

  /** One step of `forEach`: after the first `i` hooks went through onto
      `table`, the next one is either refused, which ends the whole call, or
      added. */
  lemma AddEachStep(hooks: HookTable, list: seq<Hook>, i: nat, table: HookTable)
    requires i < |list| && AddEach(hooks, list[..i]) == Applied(table, Pass)
    ensures AddHookTo(table, list[i]).Err? ==>
              AddEach(hooks, list) == Applied(table, Fail(AddHookTo(table, list[i]).message))
    ensures AddHookTo(table, list[i]).Ok? ==>
              AddEach(hooks, list[..i + 1]) == Applied(AddHookTo(table, list[i]).value, Pass)
  {
    AddEachAppend(hooks, list[..i], list[i..]);
    assert list[..i] + list[i..] == list;
    assert list[i..][0] == list[i];
    AddEachAppend(hooks, list[..i], [list[i]]);
    assert list[..i] + [list[i]] == list[..i + 1];
    assert [list[i]][1..] == [];
  }

  /** The handlers `list` registers for `event`, in array order. */
  function Registered(list: seq<Hook>, event: string): seq<Handler> {
    if list == [] then []
    else
      (if list[0].event == Str(event) && list[0].handler.Callable? then [list[0].handler.run] else [])
      + Registered(list[1..], event)
  }

  /** When every hook is valid, `addHooks` goes through and each event's list
      ends with that event's handlers in array order. */
  lemma {:induction false} AddingValidHooks(hooks: HookTable, list: seq<Hook>)
    requires forall h :: h in list ==> ValidHook(h)
    ensures AddEach(hooks, list).status == Pass
    ensures forall e :: HandlersFor(AddEach(hooks, list).table, e) == HandlersFor(hooks, e) + Registered(list, e)
  {
    AddingValidHooksTo(hooks, list, "");
    forall e
      ensures HandlersFor(AddEach(hooks, list).table, e) == HandlersFor(hooks, e) + Registered(list, e)
    {
      AddingValidHooksTo(hooks, list, e);
    }
  }

  /** `AddingValidHooks` for one event. */
  lemma {:induction false} AddingValidHooksTo(hooks: HookTable, list: seq<Hook>, e: string)
    requires forall h :: h in list ==> ValidHook(h)
    ensures AddEach(hooks, list).status == Pass
    ensures HandlersFor(AddEach(hooks, list).table, e) == HandlersFor(hooks, e) + Registered(list, e)
    decreases |list|
  {
    if list != [] {
      assert list[0] in list;
      var next := AddHookTo(hooks, list[0]).value;
      AddHookAppends(hooks, list[0]);
      assert forall h :: h in list[1..] ==> h in list;
      AddingValidHooksTo(next, list[1..], e);
      assert AddEach(hooks, list) == AddEach(next, list[1..]);
      if list[0].event == Str(e) {
        assert Registered(list, e) == [list[0].handler.run] + Registered(list[1..], e);
      } else {
        assert Registered(list, e) == Registered(list[1..], e);
      }
    }
  }

  /** A refused hook stops `addHooks`: the hooks before it stay added and the
      error is the one `addHook` gave for it. */
  lemma InvalidHookStopsAddition(hooks: HookTable, list: seq<Hook>, i: nat)
    requires i < |list| && !ValidHook(list[i])
    requires forall j :: 0 <= j < i ==> ValidHook(list[j])
    ensures AddEach(hooks, list[..i]).status == Pass
    ensures AddEach(hooks, list) ==
      Applied(AddEach(hooks, list[..i]).table, Fail(AddHookTo(AddEach(hooks, list[..i]).table, list[i]).message))
  {
    forall h | h in list[..i] ensures ValidHook(h) {
      var j :| 0 <= j < i && list[..i][j] == h;
    }
    AddingValidHooks(hooks, list[..i]);
    AddEachAppend(hooks, list[..i], list[i..]);
    assert list[..i] + list[i..] == list;
    assert list[i..][0] == list[i];
  }

  // ---------------------------------------------------------------------
  // Passing data through hooks

  /** `reduce` over the handlers: the first receives `args`, each next one
      what the previous one returned. */
  function RunHandlers(handlers: seq<Handler>, args: Value): Value
    decreases |handlers|
  {
    if handlers == [] then args else RunHandlers(handlers[1..], handlers[0](args))
  }

  /** The last registered handler is applied last:
      handler_n(... handler_1(args)). */
  lemma {:induction false} RunHandlersSnoc(handlers: seq<Handler>, h: Handler, args: Value)
    ensures RunHandlers(handlers + [h], args) == h(RunHandlers(handlers, args))
    decreases |handlers|
  {
    if handlers == [] {
      assert [] + [h] == [h];
    } else {
      assert (handlers + [h])[0] == handlers[0] && (handlers + [h])[1..] == handlers[1..] + [h];
      RunHandlersSnoc(handlers[1..], h, handlers[0](args));
    }
  }

  /** `passDataThroughHooks`: `args` itself when the event has no list,
      otherwise the left fold of its handlers over `args`. */
  function PassDataThroughHooks(hooks: HookTable, event: string, args: Value): (r: Value)
    ensures event !in hooks ==> r == args
    ensures r == RunHandlers(HandlersFor(hooks, event), args)
  {
    if event in hooks then RunHandlers(hooks[event], args) else args
  }

  /** After `addHook`, its event's data passes through the new handler last;
      every other event is passed as before. */
  lemma AddedHandlerRunsLast(hooks: HookTable, hook: Hook, args: Value, other: string)
    requires AddHookTo(hooks, hook).Ok?
    requires other != hook.event.s
    ensures PassDataThroughHooks(AddHookTo(hooks, hook).value, hook.event.s, args) ==
            hook.handler.run(PassDataThroughHooks(hooks, hook.event.s, args))
    ensures PassDataThroughHooks(AddHookTo(hooks, hook).value, other, args) == PassDataThroughHooks(hooks, other, args)
  {
    AddHookAppends(hooks, hook);
    RunHandlersSnoc(HandlersFor(hooks, hook.event.s), hook.handler.run, args);
  }

  /** The cache instance whose `getHooks` closure `args.cacheInstance` holds. */
  function HookOwners(args: Value): set<object> {
    var getHooks := Get(Get(args, "cacheInstance"), "getHooks");
    if getHooks.Method? && getHooks.owner is Cache then {getHooks.owner} else {}
  }

  /** `args.cacheInstance.getHooks()`. */
  function HooksOf(args: Value): Result<HookTable>
    reads HookOwners(args)
  {
    var getHooks := Get(Get(args, "cacheInstance"), "getHooks");
    if getHooks.Method? && getHooks.name == "getHooks" && getHooks.owner is Cache then
      Ok((getHooks.owner as Cache).hooks)
    else
      Err(GET_HOOKS_NOT_FUNCTION)
  }

  /** `getPreData` and `getPostData`, which differ only in the prefix. */
  function RunPhase(prefix: string, methodName: Value, args: Value): Result<Value>
    reads HookOwners(args)
  {
    match ValidateMethodName(methodName)
    case Fail(m) => Err(m)
    case Pass =>
      match ValidateArgs(args)
      case Fail(m) => Err(m)
      case Pass =>
        var hooks :- HooksOf(args);
        if methodName.s == "" then Err(EMPTY_METHOD_NAME)
        else Ok(PassDataThroughHooks(hooks, EventName(prefix, methodName.s), args))
  }

  /** `getPreData`: checks the method name, then `args`, then folds the
      `pre<MethodName>` handlers of `args.cacheInstance` over `args`. */
  function GetPreData(methodName: Value, args: Value): (r: Result<Value>)
    reads HookOwners(args)
    ensures !methodName.Str? ==> r == Err(METHOD_NAME_NOT_STRING)
    ensures methodName.Str? && ValidateArgs(args).Fail? ==> r == Err(ValidateArgs(args).message)
    ensures methodName.Str? && ValidateArgs(args) == Pass && HooksOf(args).Err? ==> r == Err(GET_HOOKS_NOT_FUNCTION)
    ensures methodName == Str("") && ValidateArgs(args) == Pass && HooksOf(args).Ok? ==> r == Err(EMPTY_METHOD_NAME)
    ensures methodName.Str? && methodName.s != "" && ValidateArgs(args) == Pass && HooksOf(args).Ok? ==>
              r == Ok(RunHandlers(HandlersFor(HooksOf(args).value, EventName("pre", methodName.s)), args))
  {
    RunPhase("pre", methodName, args)
  }

  /** `getPostData`: as `getPreData`, for the `post<MethodName>` handlers. */
  function GetPostData(methodName: Value, args: Value): (r: Result<Value>)
    reads HookOwners(args)
    ensures !methodName.Str? ==> r == Err(METHOD_NAME_NOT_STRING)
    ensures methodName.Str? && ValidateArgs(args).Fail? ==> r == Err(ValidateArgs(args).message)
    ensures methodName.Str? && ValidateArgs(args) == Pass && HooksOf(args).Err? ==> r == Err(GET_HOOKS_NOT_FUNCTION)
    ensures methodName == Str("") && ValidateArgs(args) == Pass && HooksOf(args).Ok? ==> r == Err(EMPTY_METHOD_NAME)
    ensures methodName.Str? && methodName.s != "" && ValidateArgs(args) == Pass && HooksOf(args).Ok? ==>
              r == Ok(RunHandlers(HandlersFor(HooksOf(args).value, EventName("post", methodName.s)), args))
  {
    RunPhase("post", methodName, args)
  }

  // ---------------------------------------------------------------------
  // Args records the façade builds

  function KeyArgs(cacheInstance: Value, key: Value): (r: Value)
    ensures r.Obj? && Get(r, "cacheInstance") == cacheInstance && Get(r, "key") == key
  {
    var fields := [Field("cacheInstance", cacheInstance), Field("key", key)];
    LookupAt(fields, 0, "cacheInstance");
    LookupAt(fields, 1, "key");
    Obj(fields)
  }

  function ResultArgs(cacheInstance: Value, key: Value, name: string, result: Value): (r: Value)
    requires name != "cacheInstance" && name != "key"
    ensures r.Obj? && Get(r, "cacheInstance") == cacheInstance && Get(r, "key") == key && Get(r, name) == result
  {
    var fields := [Field("cacheInstance", cacheInstance), Field("key", key), Field(name, result)];
    LookupAt(fields, 0, "cacheInstance");
    LookupAt(fields, 1, "key");
    LookupAt(fields, 2, name);
    Obj(fields)
  }

  function SetArgs(cacheInstance: Value, key: Value, value: Value, extra: Value): (r: Value)
    ensures r.Obj? && Get(r, "cacheInstance") == cacheInstance && Get(r, "key") == key
    ensures Get(r, "value") == value && Get(r, "extra") == extra
  {
    var fields := [Field("cacheInstance", cacheInstance), Field("key", key), Field("value", value), Field("extra", extra)];
    LookupAt(fields, 0, "cacheInstance");
    LookupAt(fields, 1, "key");
    LookupAt(fields, 2, "value");
    LookupAt(fields, 3, "extra");
    Obj(fields)
  }

  function SetPostArgs(cacheInstance: Value, key: Value, value: Value, extra: Value, item: Value): (r: Value)
    ensures r.Obj? && Get(r, "cacheInstance") == cacheInstance && Get(r, "key") == key
    ensures Get(r, "value") == value && Get(r, "extra") == extra && Get(r, "item") == item
  {
    // `item` is a fifth key after the four of `SetArgs`
    Obj(Put(SetArgs(cacheInstance, key, value, extra).fields, "item", item))
  }

  /** The post args of `setItem`: what the pre handlers returned, with the
      adapter's item. */
  function SetResultArgs(pre: Value, item: Value): (r: Value)
    ensures r.Obj? && Get(r, "cacheInstance") == Get(pre, "cacheInstance") && Get(r, "item") == item
  {
    SetPostArgs(Get(pre, "cacheInstance"), Get(pre, "key"), Get(pre, "value"), Get(pre, "extra"), item)
  }

  /** No handler of the cache is registered for `methodName`'s events. */
  predicate NoHooksFor(hooks: HookTable, methodName: string)
    requires methodName != ""
  {
    EventName("pre", methodName) !in hooks && EventName("post", methodName) !in hooks
  }

  /** The keys of the object `createCache` returns, in literal order. */
  const FACADE_METHODS: seq<string> :=
    ["addHook", "addHooks", "getHooks", "buildKey", "getItem", "getExtra", "setItem", "hasItem", "removeItem"]

  lemma FacadeMethodsDistinct()
    ensures Distinct(FACADE_METHODS)
  {
  }

  /** One property per name, each holding the closure of that method of
      `owner`. */
  function Closures(owner: object, names: seq<string>): (r: seq<Field>)
    ensures Names(r) == names
    ensures forall i :: 0 <= i < |names| ==> r[i].val == Method(owner, names[i])
  {
    if names == [] then [] else [Field(names[0], Method(owner, names[0]))] + Closures(owner, names[1..])
  }

  /** With distinct names, each name reads its own closure. */
  lemma {:induction false} ClosureLookup(owner: object, names: seq<string>, i: nat)
    requires Distinct(names) && i < |names|
    ensures Lookup(Closures(owner, names), names[i]) == Method(owner, names[i])
  {
    if i > 0 {
      assert names[0] != names[i];
      assert Distinct(names[1..]) by {
        forall a, b | 0 <= a < b < |names| - 1 ensures names[1..][a] != names[1..][b] {
          assert names[1..][a] == names[a + 1] && names[1..][b] == names[b + 1];
        }
      }
      assert names[1..][i - 1] == names[i];
      ClosureLookup(owner, names[1..], i - 1);
    }
  }

  // ---------------------------------------------------------------------
  // The adapter

  function ItemIn(items: map<Value, Value>, key: Value): Value {
    if key in items then items[key] else Undef
  }

  /** The item record the storage adapter builds. */
  function NewItem(key: Value, value: Value, extra: Value): Value {
    Obj([Field("key", key), Field("value", value), Field("extra", extra)])
  }

  /** A storage adapter: the façade's collaborator. Its `buildKey` is an
      arbitrary function and its store a map from built key to item. */
  class MapAdapter {
    const keyOf: Value -> Value
    var items: map<Value, Value>

    constructor(keyOf: Value -> Value)
      ensures this.keyOf == keyOf && items == map[]
    {
      this.keyOf := keyOf;
      items := map[];
    }

    function GetItem(key: Value): Value
      reads this
    {
      ItemIn(items, key)
    }

    function GetExtra(key: Value): Value
      reads this
    {
      Get(ItemIn(items, key), "extra")
    }

    function HasItem(key: Value): bool
      reads this
    {
      key in items
    }

    method SetItem(key: Value, value: Value, extra: Value) returns (item: Value)
      modifies this
      ensures item == NewItem(key, value, extra)
      ensures items == old(items)[key := item]
    {
      item := NewItem(key, value, extra);
      items := items[key := item];
    }

    method RemoveItem(key: Value) returns (removed: bool)
      modifies this
      ensures removed == (key in old(items))
      ensures items == old(items) - {key}
    {
      removed := key in items;
      items := items - {key};
    }
  }

  // ---------------------------------------------------------------------
  // The cache instance

  /** What `createCache` keeps per instance: the `hooks` object its closures
      share, and the adapter. */
  class Cache {
    var hooks: HookTable
    const adapter: MapAdapter

    constructor(adapter: MapAdapter)
      ensures hooks == map[] && this.adapter == adapter
    {
      hooks := map[];
      this.adapter := adapter;
    }

    /** The object `createCache` returns: one closure over this instance per
        method, in the order of the object literal. */
    function Record(): (r: Value)
      ensures RecordOf(r)
      ensures r.Obj? && Names(r.fields) == FACADE_METHODS && Distinct(Names(r.fields))
      ensures forall i :: 0 <= i < |FACADE_METHODS| ==> Get(r, FACADE_METHODS[i]) == Method(this, FACADE_METHODS[i])
    {
      FacadeMethodsDistinct();
      forall i | 0 <= i < |FACADE_METHODS|
        ensures Lookup(Closures(this, FACADE_METHODS), FACADE_METHODS[i]) == Method(this, FACADE_METHODS[i])
      {
        ClosureLookup(this, FACADE_METHODS, i);
      }
      assert FACADE_METHODS[2] == "getHooks" && FACADE_METHODS[3] == "buildKey";
      Obj(Closures(this, FACADE_METHODS))
    }

    /** `v` is a record (the one `createCache` returned or a copy of it) whose
        `getHooks` and `buildKey` are this instance's closures. */
    predicate RecordOf(v: Value) {
      Get(v, "getHooks") == Method(this, "getHooks") && Get(v, "buildKey") == Method(this, "buildKey")
    }

    /** Either phase, called with args whose `cacheInstance` is a record of
        this instance, folds this instance's handlers over them. */
    lemma PhaseOnRecord(prefix: string, methodName: string, args: Value)
      requires methodName != ""
      ensures args.Obj? && RecordOf(Get(args, "cacheInstance")) ==>
                RunPhase(prefix, Str(methodName), args) == Ok(PassDataThroughHooks(hooks, EventName(prefix, methodName), args))
    {
      if args.Obj? && RecordOf(Get(args, "cacheInstance")) {
        assert Get(args, "cacheInstance").Obj?;
        assert HooksOf(args) == Ok(hooks);
      }
    }

    function GetHooks(): HookTable
      reads this
    {
      hooks
    }

    /** `addHook`: on success the table is `AddHookTo`'s; on failure it is
        unchanged. */
    method AddHook(hook: Hook) returns (r: Outcome)
      modifies this
      ensures r == Pass <==> AddHookTo(old(hooks), hook).Ok?
      ensures r != Pass ==> r == Fail(AddHookTo(old(hooks), hook).message) && hooks == old(hooks)
      ensures r == Pass ==> hooks == AddHookTo(old(hooks), hook).value
    {
      if TypeOf(hook.event) != "string" {
        return Fail(EVENT_NOT_STRING);
      }
      var event := hook.event.s;
      if !StartsWith(event, "pre") && !StartsWith(event, "post") {
        return Fail(EVENT_WITHOUT_PREFIX);
      }
      if !hook.handler.Callable? {
        return Fail(HANDLER_NOT_FUNCTION);
      }
      if event in hooks {
        hooks := hooks[event := hooks[event] + [hook.handler.run]];
      } else {
        hooks := hooks[event := [hook.handler.run]];
      }
      r := Pass;
    }

    /** `addHooks`: refuses a non-array, otherwise adds the hooks in array
        order until one is refused. */
    method AddHooks(list: HookList) returns (r: Outcome)
      modifies this
      ensures Applied(hooks, r) == AddHooksTo(old(hooks), list)
    {
      if !list.HookArray? {
        return Fail(HOOKS_NOT_ARRAY);
      }
      var all := list.hooks;
      ghost var start := hooks;
      var i := 0;
      while i < |all|
        invariant 0 <= i <= |all|
        invariant AddEach(start, all[..i]) == Applied(hooks, Pass)
      {
        AddEachStep(start, all, i, hooks);
        var outcome := AddHook(all[i]);
        if outcome.Fail? {
          return outcome;
        }
        i := i + 1;
      }
      assert all[..i] == all;
      r := Pass;
    }

    /** `buildKey`: the adapter builds the key from the `preBuildKey`
        handlers' `key`; the result is the `postBuildKey` handlers' `key`.
        With no such handlers it is exactly the adapter's key. */
    function BuildKey(receiver: Value, key: Value): (r: Result<Value>)
      requires RecordOf(receiver)
      reads *
      ensures var pre := PassDataThroughHooks(hooks, EventName("pre", "buildKey"), KeyArgs(receiver, key));
              RecordOf(Get(pre, "cacheInstance")) ==>
                r == Ok(Get(PassDataThroughHooks(hooks, EventName("post", "buildKey"),
                                                 KeyArgs(Get(pre, "cacheInstance"), adapter.keyOf(Get(pre, "key")))),
                            "key"))
      ensures NoHooksFor(hooks, "buildKey") ==> r == Ok(adapter.keyOf(key))
    {
      // The receiver is a record of this instance, so the pre phase cannot
      // throw; the post phase can, when a pre handler replaced `cacheInstance`.
      PhaseOnRecord("pre", "buildKey", KeyArgs(receiver, key));
      var pre := GetPreData(Str("buildKey"), KeyArgs(receiver, key)).value;
      var builtKey := adapter.keyOf(Get(pre, "key"));
      var postArgs := KeyArgs(Get(pre, "cacheInstance"), builtKey);
      PhaseOnRecord("post", "buildKey", postArgs);
      var post :- GetPostData(Str("buildKey"), postArgs);
      Ok(Get(post, "key"))
    }

    /** The first half of every item operation: the pre phase on `preArgs`,
        then `this.buildKey` of the pre handlers' `key`. */
    function Plan(receiver: Value, methodName: string, preArgs: Value): (r: Result<(Value, Value)>)
      requires RecordOf(receiver) && methodName != ""
      requires preArgs.Obj? && Get(preArgs, "cacheInstance") == receiver
      reads *
      ensures var pre := PassDataThroughHooks(hooks, EventName("pre", methodName), preArgs);
              var builtKey := BuildKey(receiver, Get(pre, "key"));
              && (r.Ok? <==> builtKey.Ok?)
              && (r.Ok? ==> r.value == (pre, builtKey.value))
              && (r.Err? ==> r.message == builtKey.message)
    {
      PhaseOnRecord("pre", methodName, preArgs);
      var pre := GetPreData(Str(methodName), preArgs).value;
      var builtKey :- BuildKey(receiver, Get(pre, "key"));
      Ok((pre, builtKey))
    }

    /** The second half of every item operation: the post phase on
        `postArgs`, and the field `name` of what it returns. */
    function Finish(methodName: string, postArgs: Value, name: string): (r: Result<Value>)
      requires methodName != ""
      reads HookOwners(postArgs)
      ensures postArgs.Obj? && RecordOf(Get(postArgs, "cacheInstance")) ==>
                r == Ok(Get(PassDataThroughHooks(hooks, EventName("post", methodName), postArgs), name))
    {
      PhaseOnRecord("post", methodName, postArgs);
      var post :- GetPostData(Str(methodName), postArgs);
      Ok(Get(post, name))
    }

    /** When a `preBuildKey` handler puts another instance's record into
        `cacheInstance`, `postBuildKey` runs that instance's handlers. */
    lemma BuildKeyPostHooksOfPreInstance(other: Cache, receiver: Value, key: Value)
      requires RecordOf(receiver)
      ensures var pre := PassDataThroughHooks(hooks, EventName("pre", "buildKey"), KeyArgs(receiver, key));
              other.RecordOf(Get(pre, "cacheInstance")) ==>
                BuildKey(receiver, key)
                == Ok(Get(PassDataThroughHooks(other.hooks, EventName("post", "buildKey"),
                                               KeyArgs(Get(pre, "cacheInstance"), adapter.keyOf(Get(pre, "key")))),
                          "key"))
    {
      PhaseOnRecord("pre", "buildKey", KeyArgs(receiver, key));
      var pre := PassDataThroughHooks(hooks, EventName("pre", "buildKey"), KeyArgs(receiver, key));
      other.PhaseOnRecord("post", "buildKey", KeyArgs(Get(pre, "cacheInstance"), adapter.keyOf(Get(pre, "key"))));
    }

    /** The post phase runs the handlers of whichever instance `cacheInstance`
        is a record of, not necessarily this one. */
    lemma FinishOnAnyInstance(other: Cache, methodName: string, postArgs: Value, name: string)
      requires methodName != ""
      ensures postArgs.Obj? && other.RecordOf(Get(postArgs, "cacheInstance")) ==>
                Finish(methodName, postArgs, name)
                == Ok(Get(PassDataThroughHooks(other.hooks, EventName("post", methodName), postArgs), name))
    {
      other.PhaseOnRecord("post", methodName, postArgs);
    }

    lemma PlanWithoutHooks(receiver: Value, methodName: string, preArgs: Value)
      requires RecordOf(receiver) && methodName != ""
      requires preArgs.Obj? && Get(preArgs, "cacheInstance") == receiver
      requires NoHooksFor(hooks, methodName) && NoHooksFor(hooks, "buildKey")
      ensures Plan(receiver, methodName, preArgs) == Ok((preArgs, adapter.keyOf(Get(preArgs, "key"))))
    {
    }

    lemma FinishWithoutHooks(methodName: string, postArgs: Value, name: string)
      requires methodName != "" && postArgs.Obj? && RecordOf(Get(postArgs, "cacheInstance"))
      requires NoHooksFor(hooks, methodName)
      ensures Finish(methodName, postArgs, name) == Ok(Get(postArgs, name))
    {
    }

    /** `getItem`, `getExtra` and `hasItem`, which differ only in the adapter
        call and the name of the result field: the adapter is asked about the
        key built from the pre handlers' `key`, and the post handlers see the
        pre handlers' `cacheInstance` and `key` with the answer. */
    function Query(receiver: Value, key: Value, methodName: string, resultName: string, answer: Value -> Value)
      : (r: Result<Value>)
      requires RecordOf(receiver) && methodName != ""
      requires resultName != "cacheInstance" && resultName != "key"
      reads *
      ensures var plan := Plan(receiver, methodName, KeyArgs(receiver, key));
              && (plan.Err? ==> r == Err(plan.message))
              && (plan.Ok? ==>
                    r == Finish(methodName, ResultArgs(Get(plan.value.0, "cacheInstance"), Get(plan.value.0, "key"),
                                                       resultName, answer(plan.value.1)), resultName))
      ensures NoHooksFor(hooks, methodName) && NoHooksFor(hooks, "buildKey") ==>
                r == Ok(answer(adapter.keyOf(key)))
    {
      var (pre, builtKey) :- Plan(receiver, methodName, KeyArgs(receiver, key));
      var postArgs := ResultArgs(Get(pre, "cacheInstance"), Get(pre, "key"), resultName, answer(builtKey));
      Finish(methodName, postArgs, resultName)
    }

    /** `getItem`: with no hooks, the adapter's item under the built key. */
    function GetItem(receiver: Value, key: Value): (r: Result<Value>)
      requires RecordOf(receiver)
      reads *
      ensures NoHooksFor(hooks, "getItem") && NoHooksFor(hooks, "buildKey") ==>
                r == Ok(adapter.GetItem(adapter.keyOf(key)))
    {
      var items := adapter.items;
      Query(receiver, key, "getItem", "item", k => ItemIn(items, k))
    }

    /** `getExtra`: with no hooks, the adapter's extra under the built key. */
    function GetExtra(receiver: Value, key: Value): (r: Result<Value>)
      requires RecordOf(receiver)
      reads *
      ensures NoHooksFor(hooks, "getExtra") && NoHooksFor(hooks, "buildKey") ==>
                r == Ok(adapter.GetExtra(adapter.keyOf(key)))
    {
      var items := adapter.items;
      Query(receiver, key, "getExtra", "extra", k => Get(ItemIn(items, k), "extra"))
    }

    /** `hasItem`: with no hooks, whether the adapter holds the built key. */
    function HasItem(receiver: Value, key: Value): (r: Result<Value>)
      requires RecordOf(receiver)
      reads *
      ensures NoHooksFor(hooks, "hasItem") && NoHooksFor(hooks, "buildKey") ==>
                r == Ok(Bool(adapter.HasItem(adapter.keyOf(key))))
    {
      var items := adapter.items;
      Query(receiver, key, "hasItem", "result", k => Bool(k in items))
    }

    /** The plan of `setItem`, whose pre args carry `extra` defaulted to `{}`. */
    function SetPlan(receiver: Value, key: Value, value: Value, extra: Value): Result<(Value, Value)>
      requires RecordOf(receiver)
      reads *
    {
      Plan(receiver, "setItem", SetArgs(receiver, key, value, OrDefault(extra, Obj([]))))
    }

    function RemovePlan(receiver: Value, key: Value): Result<(Value, Value)>
      requires RecordOf(receiver)
      reads *
    {
      Plan(receiver, "removeItem", KeyArgs(receiver, key))
    }

    /** With no `setItem` and `buildKey` handlers, `setItem` stores under the
        adapter's key and returns the adapter's item. */
    lemma SetWithoutHooks(receiver: Value, key: Value, value: Value, extra: Value, item: Value)
      requires RecordOf(receiver)
      ensures NoHooksFor(hooks, "setItem") && NoHooksFor(hooks, "buildKey") ==>
                var plan := SetPlan(receiver, key, value, extra);
                && plan.Ok? && plan.value.1 == adapter.keyOf(key)
                && Get(plan.value.0, "value") == value && Get(plan.value.0, "extra") == OrDefault(extra, Obj([]))
                && Finish("setItem", SetResultArgs(plan.value.0, item), "item") == Ok(item)
    {
      if NoHooksFor(hooks, "setItem") && NoHooksFor(hooks, "buildKey") {
        var preArgs := SetArgs(receiver, key, value, OrDefault(extra, Obj([])));
        PlanWithoutHooks(receiver, "setItem", preArgs);
        FinishWithoutHooks("setItem", SetResultArgs(preArgs, item), "item");
      }
    }

    /** `setItem`: `extra` defaults to `{}`; the adapter stores the pre
        handlers' `value` and `extra` under the key built from their `key`,
        and the post handlers see the item it returned. */
    method SetItem(receiver: Value, key: Value, value: Value, extra: Value) returns (r: Result<Value>)
      requires RecordOf(receiver)
      modifies adapter
      ensures var plan := old(SetPlan(receiver, key, value, extra));
              && (plan.Err? ==> r == Err(plan.message) && adapter.items == old(adapter.items))
              && (plan.Ok? ==>
                    var item := NewItem(plan.value.1, Get(plan.value.0, "value"), Get(plan.value.0, "extra"));
                    && adapter.items == old(adapter.items)[plan.value.1 := item]
                    && r == Finish("setItem", SetResultArgs(plan.value.0, item), "item"))
      ensures NoHooksFor(hooks, "setItem") && NoHooksFor(hooks, "buildKey") ==>
                var item := NewItem(adapter.keyOf(key), value, OrDefault(extra, Obj([])));
                r == Ok(item) && adapter.items == old(adapter.items)[adapter.keyOf(key) := item]
    {
      var plan := SetPlan(receiver, key, value, extra);
      if plan.Err? {
        return Err(plan.message);
      }
      var (pre, builtKey) := plan.value;
      var item := adapter.SetItem(builtKey, Get(pre, "value"), Get(pre, "extra"));
      SetWithoutHooks(receiver, key, value, extra, item);
      r := Finish("setItem", SetResultArgs(pre, item), "item");
    }

    /** `removeItem`: the adapter removes the key built from the pre
        handlers' `key`; the post handlers see whether it was there. */
    method RemoveItem(receiver: Value, key: Value) returns (r: Result<Value>)
      requires RecordOf(receiver)
      modifies adapter
      ensures var plan := old(RemovePlan(receiver, key));
              && (plan.Err? ==> r == Err(plan.message) && adapter.items == old(adapter.items))
              && (plan.Ok? ==>
                    var (pre, builtKey) := plan.value;
                    && adapter.items == old(adapter.items) - {builtKey}
                    && r == Finish("removeItem", ResultArgs(Get(pre, "cacheInstance"), Get(pre, "key"), "result",
                                                            Bool(builtKey in old(adapter.items))), "result"))
      ensures NoHooksFor(hooks, "removeItem") && NoHooksFor(hooks, "buildKey") ==>
                && r == Ok(Bool(adapter.keyOf(key) in old(adapter.items)))
                && adapter.items == old(adapter.items) - {adapter.keyOf(key)}
    {
      var plan := RemovePlan(receiver, key);
      if plan.Err? {
        return Err(plan.message);
      }
      var (pre, builtKey) := plan.value;
      ghost var noHooks := NoHooksFor(hooks, "removeItem") && NoHooksFor(hooks, "buildKey");
      if noHooks {
        PlanWithoutHooks(receiver, "removeItem", KeyArgs(receiver, key));
      }
      var removed := adapter.RemoveItem(builtKey);
      var postArgs := ResultArgs(Get(pre, "cacheInstance"), Get(pre, "key"), "result", Bool(removed));
      if noHooks {
        FinishWithoutHooks("removeItem", postArgs, "result");
      }
      r := Finish("removeItem", postArgs, "result");
    }
  }

  /** `createCache`: validates the adapter against the six required methods,
      then returns a new instance with an empty hook table of its own. */
  method NewCache(adapter: Value, backend: MapAdapter) returns (r: Result<Cache>)
    ensures ValidateAdapter(adapter, REQUIRED_METHODS).Fail? ==> r == Err(ValidateAdapter(adapter, REQUIRED_METHODS).message)
    ensures ValidateAdapter(adapter, REQUIRED_METHODS) == Pass ==>
              r.Ok? && fresh(r.value) && r.value.hooks == map[] && r.value.adapter == backend
  {
    var validation := ValidateAdapter(adapter, REQUIRED_METHODS);
    if validation.Fail? {
      return Err(validation.message);
    }
    var cache := new Cache(backend);
    r := Ok(cache);
  }

  /** With no hooks registered, an item stored through a new cache is read
      back as the adapter's record of the built key, the value and the
      defaulted `extra`; the hook tables of two caches are separate. */
  method SetThenGet(adapter: Value, backend: MapAdapter, key: Value, value: Value)
    returns (stored: Result<Value>, read: Result<Value>, found: Result<Value>)
    requires ValidateAdapter(adapter, REQUIRED_METHODS) == Pass
    modifies backend
    ensures stored == Ok(NewItem(backend.keyOf(key), value, Obj([])))
    ensures read == stored
    ensures found == Ok(Bool(true))
  {
    var created := NewCache(adapter, backend);
    var cache := created.value;
    var record := cache.Record();
    stored := cache.SetItem(record, key, value, Undef);
    read := cache.GetItem(record, key);
    found := cache.HasItem(record, key);
  }

  /** Each `createCache` call has a hook table of its own: a hook added
      through one instance is not seen by another, and the added handler is
      the whole list of its event. */
  method SeparateHookTables(adapter: Value, backend: MapAdapter, handler: Handler)
    returns (firstHooks: HookTable, secondHooks: HookTable)
    requires ValidateAdapter(adapter, REQUIRED_METHODS) == Pass
    ensures firstHooks == map["preBuildKey" := [handler]]
    ensures secondHooks == map[]
  {
    var first := NewCache(adapter, backend);
    var second := NewCache(adapter, backend);
    var added := first.value.AddHook(Hook(Str("preBuildKey"), Callable(handler)));
    firstHooks := first.value.GetHooks();
    secondHooks := second.value.GetHooks();
  }
}

=== FILE: create_item_js.dfy ===
/** src/createItem.js: the generation that merges the cache namespace into
    an item's `extra`. */
module CreateItemJs {
  import opened JsValue
  import Validation

  const EXTRA_HAS_NAMESPACE := "`extra` can't contain `namespace` property."

  datatype Item = Item(key: Value, value: Value, extra: Value)

  /** The file's own `validateExtra`: the shape check of src/validation.js,
      then a ban on a truthy `namespace` property. */
  function ValidateExtra(extra: Value): (r: Outcome)
    ensures r == Pass <==> extra.Obj? && !Truthy(Get(extra, "namespace"))
    ensures !extra.Obj? ==> r == Fail(Validation.EXTRA_NOT_OBJECT)
    ensures extra.Obj? && Truthy(Get(extra, "namespace")) ==> r == Fail(EXTRA_HAS_NAMESPACE)
  {
    match Validation.ValidateExtra(extra)
    case Fail(m) => Fail(m)
    case Pass => if Truthy(Get(extra, "namespace")) then Fail(EXTRA_HAS_NAMESPACE) else Pass
  }

  /** `createItem(key, value, namespace, extra = {})`. The item keeps `key`
      and `value` as given; its `extra` is a fresh object that starts with the
      key `namespace` and holds every key of the given `extra`. */
  function CreateItem(key: Value, value: Value, namespace: Value, extra: Value): (r: Result<Item>)
    ensures r.Ok? <==> ValidateExtra(OrDefault(extra, Obj([]))) == Pass
    ensures r.Err? ==> r == Err(ValidateExtra(OrDefault(extra, Obj([]))).message)
    ensures r.Ok? ==> r.value.key == key && r.value.value == value && r.value.extra.Obj?
    ensures r.Ok? ==> forall m :: m in Keys(r.value.extra) <==> m == "namespace" || m in Keys(OrDefault(extra, Obj([])))
    ensures r.Ok? ==> |Keys(r.value.extra)| >= 1 && Keys(r.value.extra)[0] == "namespace"
    ensures r.Ok? && "namespace" !in Keys(OrDefault(extra, Obj([]))) ==> Get(r.value.extra, "namespace") == namespace
  {
    var given := OrDefault(extra, Obj([]));
    match ValidateExtra(given)
    case Fail(m) => Err(m)
    case Pass =>
      // `Object.assign({}, { namespace }, extra)`
      var start := Put([], "namespace", namespace);
      AssignKeepsKeyOrder(start, given.fields);
      Ok(Item(key, value, Obj(Assign(start, given.fields))))
  }

  /** Every key of the given `extra` keeps its value in the item, so an
      `extra` with a falsy `namespace` overrides the namespace argument. */
  lemma GivenExtraWins(key: Value, value: Value, namespace: Value, extra: Value, m: string)
    requires CreateItem(key, value, namespace, extra).Ok?
    requires Distinct(Keys(OrDefault(extra, Obj([])))) && m in Keys(OrDefault(extra, Obj([])))
    ensures Get(CreateItem(key, value, namespace, extra).value.extra, m) == Get(OrDefault(extra, Obj([])), m)
  {
    var given := OrDefault(extra, Obj([]));
    var start := Put([], "namespace", namespace);
    assert CreateItem(key, value, namespace, extra).value.extra == Obj(Assign(start, given.fields));
    AssignCopiesValues(start, given.fields, m);
  }
}

=== FILE: create_item_old.dfy ===
/** src-old/createItem.js: the oldest generation, with neither a namespace
    nor a `ttl`. Its `./validation` module is not part of this model; the
    `extra` check used is that of src/validation.js, whose message is the one
    this generation's tests expect. */
module CreateItemOld {
  import opened JsValue
  import Validation

  datatype Item = Item(key: Value, value: Value, extra: Value)

  /** The unshown `validateKey`: any check that returns normally or throws. */
  type KeyValidator = Value -> Outcome

  /** `createItem(key, value, extra = {})`: an omitted or `undefined` `extra`
      becomes `{}`, any other non-object is refused, and a given object is
      stored as it is, without merging. */
  function CreateItem(key: Value, value: Value, extra: Value, validateKey: KeyValidator): (r: Result<Item>)
    ensures validateKey(key).Fail? ==> r == Err(validateKey(key).message)
    ensures validateKey(key).Pass? ==> (r.Ok? <==> extra == Undef || extra.Obj?)
    ensures validateKey(key).Pass? && extra != Undef && !extra.Obj? ==> r == Err(Validation.EXTRA_NOT_OBJECT)
    ensures r.Ok? ==> r.value.key == key && r.value.value == value
    ensures r.Ok? ==> r.value.extra == (if extra == Undef then Obj([]) else extra)
  {
    match validateKey(key)
    case Fail(m) => Err(m)
    case Pass =>
      var given := OrDefault(extra, Obj([]));
      match Validation.ValidateExtra(given)
      case Fail(m) => Err(m)
      case Pass => Ok(Item(key, value, given))
  }
}

=== FILE: create_item_ts.dfy ===
/** src/createItem.ts: the TypeScript generation, where `ttl` is a sibling
    of `extra`. */
module CreateItemTs {
  import opened JsValue
  import ValidateExtraTs

  const ONE_HOUR_IN_SECONDS: real := 3600.0

  /** An item as the in-memory store keeps it. `ttl` is whatever the caller
      passed (a number, `null`, a `Date`, ...). */
  datatype Item = Item(key: string, value: Value, ttl: Value, extra: Value)

  /** `validateKey` from src/validators/validateKey, which is not part of this
      model: any check that returns normally or throws. */
  type KeyValidator = string -> Outcome

  /** `createItem(key, value, ttl = 3600, extra = {})`: the key is checked
      before `extra`; `ttl` is never checked. */
  function CreateItem(key: string, value: Value, ttl: Value, extra: Value, validateKey: KeyValidator): (r: Result<Item>)
    ensures validateKey(key).Fail? ==> r == Err(validateKey(key).message)
    ensures validateKey(key).Pass? ==> (r.Ok? <==> OrDefault(extra, Obj([])).Obj?)
    ensures validateKey(key).Pass? && !OrDefault(extra, Obj([])).Obj? ==> r == Err(ValidateExtraTs.EXTRA_NOT_OBJECT)
    ensures r.Ok? ==> r.value.key == key && r.value.value == value
    ensures r.Ok? ==> r.value.ttl == (if ttl == Undef then Num(ONE_HOUR_IN_SECONDS) else ttl)
    ensures r.Ok? ==> r.value.extra == (if extra == Undef then Obj([]) else extra)
  {
    match validateKey(key)
    case Fail(m) => Err(m)
    case Pass =>
      var given := OrDefault(extra, Obj([]));
      match ValidateExtraTs.ValidateExtra(given)
      case Fail(m) => Err(m)
      case Pass => Ok(Item(key, value, OrDefault(ttl, Num(ONE_HOUR_IN_SECONDS)), given))
  }

  /** Whether an item is built does not depend on `ttl` at all: `null` or a
      `Date` is stored as given. */
  lemma TtlIsNotChecked(key: string, value: Value, ttl: Value, extra: Value, validateKey: KeyValidator)
    ensures CreateItem(key, value, ttl, extra, validateKey).Ok? <==>
            CreateItem(key, value, Undef, extra, validateKey).Ok?
  {
  }
}

=== FILE: js_value.dfy ===
/** JavaScript values as the cache library inspects them, and the built-in
    operations it applies to them: `typeof`, `Array.isArray`, truthiness,
    own-property reads, property assignment and `Object.assign`. */
module JsValue {

  datatype Option<T> = None | Some(value: T)

  /** Either a value returned normally, or an `Error` with `message` that was
      thrown (or that a returned promise was rejected with). */
  datatype Result<T> = Ok(value: T) | Err(message: string) {
    predicate IsFailure() { Err? }

    function PropagateFailure<U>(): Result<U>
      requires Err?
    {
      Err(message)
    }

    function Extract(): T
      requires Ok?
    {
      value
    }
  }

  /** A check that either returns normally or throws an `Error` with `message`. */
  datatype Outcome = Pass | Fail(message: string)

  /** A JavaScript value. An object is the list of its own enumerable
      properties in key order; a `Date` is an object too. */
  datatype Value =
    | Undef                               // `undefined`, also an omitted argument
    | Null
    | Bool(b: bool)
    | Num(n: real)                        // a finite number
    | Str(s: string)
    | Arr(items: seq<Value>)
    | Obj(fields: seq<Field>)
    | Func(id: nat)                       // a function whose body lies outside the model
    | Method(owner: object, name: string) // the method `name` of the cache instance `owner`

  datatype Field = Field(name: string, val: Value)

  /** A value whose `typeof` is not 'function'. */
  type NonFunction = v: Value | !IsFunction(v) witness Undef

  /** A value for which `Array.isArray` is false. */
  type NonArray = v: Value | !IsArray(v) witness Undef

  function TypeOf(v: Value): string {
    match v
    case Undef => "undefined"
    case Null => "object"
    case Bool(_) => "boolean"
    case Num(_) => "number"
    case Str(_) => "string"
    case Arr(_) => "object"
    case Obj(_) => "object"
    case Func(_) => "function"
    case Method(_, _) => "function"
  }

  predicate IsArray(v: Value) { v.Arr? }

  predicate IsFunction(v: Value) { TypeOf(v) == "function" }

  /** The guard the library writes as
      `typeof v === 'object' && v !== null && !Array.isArray(v)`. */
  predicate IsNonArrayObject(v: Value) {
    TypeOf(v) == "object" && v != Null && !IsArray(v)
  }

  /** JavaScript truthiness (NaN is not modelled). */
  predicate Truthy(v: Value) {
    match v
    case Undef => false
    case Null => false
    case Bool(b) => b
    case Num(n) => n != 0.0
    case Str(s) => s != ""
    case _ => true
  }

  /** A default parameter `p = d`: it applies when the argument is
      `undefined`, whether omitted or passed explicitly. */
  function OrDefault(arg: Value, default: Value): Value {
    if arg == Undef then default else arg
  }

  /** `Number.isInteger` on a finite number. */
  predicate IsInteger(n: real) { n.Floor as real == n }

  /** The property names of an object, in key order. */
  function Names(fields: seq<Field>): (names: seq<string>)
    ensures |names| == |fields|
    ensures forall i :: 0 <= i < |fields| ==> names[i] == fields[i].name
  {
    if fields == [] then [] else [fields[0].name] + Names(fields[1..])
  }

  predicate Distinct(s: seq<string>) {
    forall i, j :: 0 <= i < j < |s| ==> s[i] != s[j]
  }

  /** `Object.keys(v)` for an object; the library applies it to objects only. */
  function Keys(v: Value): seq<string> {
    if v.Obj? then Names(v.fields) else []
  }

  /** The value of the own property `name`, `undefined` when there is none. */
  function Lookup(fields: seq<Field>, name: string): (v: Value)
    ensures name !in Names(fields) ==> v == Undef
  {
    if fields == [] then Undef
    else if fields[0].name == name then fields[0].val
    else Lookup(fields[1..], name)
  }

  /** The first property named `name` gives the value read. */
  lemma {:induction false} LookupAt(fields: seq<Field>, i: nat, name: string)
    requires i < |fields| && fields[i].name == name
    requires forall j :: 0 <= j < i ==> fields[j].name != name
    ensures Lookup(fields, name) == fields[i].val
  {
    if i > 0 {
      LookupAt(fields[1..], i - 1, name);
    }
  }

  /** `v[name]` for an own property; non-objects have none. */
  function Get(v: Value, name: string): Value {
    if v.Obj? then Lookup(v.fields, name) else Undef
  }

  /** `o[name] = val`: overwrites the property in place, or appends it as the
      last key when the object did not have it. */
  function Put(fields: seq<Field>, name: string, val: Value): (r: seq<Field>)
    ensures Lookup(r, name) == val
    ensures forall m :: m != name ==> Lookup(r, m) == Lookup(fields, m)
    ensures Names(r) == if name in Names(fields) then Names(fields) else Names(fields) + [name]
  {
    if fields == [] then [Field(name, val)]
    else if fields[0].name == name then
      var r := [Field(name, val)] + fields[1..];
      assert r[1..] == fields[1..];
      r
    else
      var rest := Put(fields[1..], name, val);
      var r := [fields[0]] + rest;
      assert r[0] == fields[0] && r[1..] == rest;
      r
  }

  /** Assigning a property the object does not have appends it. */
  lemma {:induction false} PutAppends(fields: seq<Field>, name: string, val: Value)
    requires name !in Names(fields)
    ensures Put(fields, name, val) == fields + [Field(name, val)]
  {
    if fields != [] {
      assert Names(fields) == [fields[0].name] + Names(fields[1..]);
      PutAppends(fields[1..], name, val);
      assert fields == [fields[0]] + fields[1..];
    }
  }

  /** `Object.assign` of the own properties `src` onto the object `target`,
      one property assignment at a time, in key order. */
  function Assign(target: seq<Field>, src: seq<Field>): (r: seq<Field>)
    ensures forall m :: m !in Names(src) ==> Lookup(r, m) == Lookup(target, m)
    ensures forall m :: m in Names(r) <==> m in Names(target) || m in Names(src)
    decreases |src|
  {
    if src == [] then target
    else
      assert Names(src) == [src[0].name] + Names(src[1..]);
      Assign(Put(target, src[0].name, src[0].val), src[1..])
  }

  /** After `Object.assign`, each copied key holds the copied value. */
  lemma {:induction false} AssignCopiesValues(target: seq<Field>, src: seq<Field>, m: string)
    requires Distinct(Names(src)) && m in Names(src)
    ensures Lookup(Assign(target, src), m) == Lookup(src, m)
    decreases |src|
  {
    assert Names(src) == [src[0].name] + Names(src[1..]);
    var next := Put(target, src[0].name, src[0].val);
    if src[0].name == m {
      assert m !in Names(src[1..]) by {
        forall i | 0 <= i < |src| - 1 ensures Names(src[1..])[i] != m {
          assert Names(src[1..])[i] == Names(src)[i + 1];
        }
      }
    } else {
      assert Distinct(Names(src[1..])) by {
        forall i, j | 0 <= i < j < |src| - 1 ensures Names(src[1..])[i] != Names(src[1..])[j] {
          assert Names(src[1..])[i] == Names(src)[i + 1];
          assert Names(src[1..])[j] == Names(src)[j + 1];
        }
      }
      AssignCopiesValues(next, src[1..], m);
    }
  }

  /** `Object.assign` keeps the target's keys first, in their order. */
  lemma {:induction false} AssignKeepsKeyOrder(target: seq<Field>, src: seq<Field>)
    ensures |Names(target)| <= |Names(Assign(target, src))|
    ensures Names(Assign(target, src))[..|Names(target)|] == Names(target)
    decreases |src|
  {
    if src != [] {
      var next := Put(target, src[0].name, src[0].val);
      AssignKeepsKeyOrder(next, src[1..]);
      var a, b, c := Names(target), Names(next), Names(Assign(next, src[1..]));
      if src[0].name in a {
        assert b == a;
      } else {
        assert b[..|a|] == (a + [src[0].name])[..|a|] == a;
      }
      assert c[..|a|] == c[..|b|][..|a|];
    }
  }

  lemma PutKeepsKeysDistinct(fields: seq<Field>, name: string, val: Value)
    requires Distinct(Names(fields))
    ensures Distinct(Names(Put(fields, name, val)))
  {
  }

  /** `Object.assign` onto an object never gives it a key twice. */
  lemma {:induction false} AssignKeepsKeysDistinct(target: seq<Field>, src: seq<Field>)
    requires Distinct(Names(target))
    ensures Distinct(Names(Assign(target, src)))
    decreases |src|
  {
    if src != [] {
      PutKeepsKeysDistinct(target, src[0].name, src[0].val);
      AssignKeepsKeysDistinct(Put(target, src[0].name, src[0].val), src[1..]);
    }
  }

  /** Copying the properties of an object into one that has none of its keys
      appends them unchanged. */
  lemma {:induction false} AssignOntoFreshKeys(target: seq<Field>, src: seq<Field>)
    requires Distinct(Names(target + src))
    ensures Assign(target, src) == target + src
    decreases |src|
  {
    if src != [] {
      var f := src[0];
      assert Names(target + src)[|target|] == f.name;
      assert f.name !in Names(target) by {
        forall i | 0 <= i < |target| ensures Names(target)[i] != f.name {
          assert Names(target)[i] == Names(target + src)[i];
        }
      }
      assert target + src == (target + [f]) + src[1..];
      PutAppends(target, f.name, f.val);
      AssignOntoFreshKeys(target + [f], src[1..]);
    }
  }

  /** `{...fields}`: copying a well-formed object into a fresh one yields an
      equal object. */
  lemma CopyIsIdentity(fields: seq<Field>)
    requires Distinct(Names(fields))
    ensures Assign([], fields) == fields
  {
    assert [] + fields == fields;
    AssignOntoFreshKeys([], fields);
  }

  function Digit(d: nat): char
    requires d < 10
  {
    "0123456789"[d]
  }

  /** Decimal notation of a natural number, as `String(n)` prints it. */
  function NatToString(n: nat): (r: string)
    ensures |r| >= 1
    ensures forall i :: 0 <= i < |r| ==> '0' <= r[i] <= '9'
  {
    if n < 10 then [Digit(n)] else NatToString(n / 10) + [Digit(n % 10)]
  }

  /** `String(i)` for an integer below 10^21 in magnitude. */
  function IntToString(i: int): (r: string)
    ensures |r| >= 1
    ensures (r[0] == '-') <==> i < 0
  {
    if i < 0 then "-" + NatToString(-i) else NatToString(i)
  }
}

=== FILE: memory_adapter.dfy ===
/** src/adapters/MemoryAdapter/MemoryAdapter.ts: the in-memory store. The
    private `#items` record is the field `items`, updated in place. Promise
    resolution is a returned `Ok`, rejection an `Err`. */
module MemoryStore {
  import opened JsValue
  import opened CreateItemTs

  const TTL_NOT_NUMBER := "'ttl' needs to be a number."
  const TTL_NOT_INTEGER := "'ttl' needs to be an intiger."

  function TtlNotPositive(n: real): string
    requires IsInteger(n)
  {
    "'ttl' needs to be greater than 0 (value passed: " + IntToString(n.Floor) + ")."
  }

  /** The checks `set` makes on a given `ttl`, in source order; an omitted
      `ttl` is not checked. */
  function CheckTtl(ttl: Value): (r: Outcome)
    ensures r == Pass <==> ttl == Undef || (ttl.Num? && IsInteger(ttl.n) && ttl.n > 0.0)
    ensures ttl != Undef && !ttl.Num? ==> r == Fail(TTL_NOT_NUMBER)
    ensures ttl.Num? && !IsInteger(ttl.n) ==> r == Fail(TTL_NOT_INTEGER)
    ensures ttl.Num? && IsInteger(ttl.n) && ttl.n <= 0.0 ==> r == Fail(TtlNotPositive(ttl.n))
  {
    if ttl == Undef then Pass
    else if TypeOf(ttl) != "number" then Fail(TTL_NOT_NUMBER)
    else if !IsInteger(ttl.n) then Fail(TTL_NOT_INTEGER)
    else if ttl.n <= 0.0 then Fail(TtlNotPositive(ttl.n))
    else Pass
  }

  /** What the store holds under `key`: an item built for that key, with a
      positive whole-second `ttl` and an object `extra`. */
  predicate GoodEntry(key: string, item: Item) {
    item.key == key && item.ttl.Num? && IsInteger(item.ttl.n) && item.ttl.n > 0.0 && item.extra.Obj?
  }

  class MemoryAdapter {
    var items: map<string, Item>
    /** The key check `createItem` imports; not part of this model. */
    const validateKey: KeyValidator

    ghost predicate Valid()
      reads this
    {
      forall k :: k in items ==> GoodEntry(k, items[k])
    }

    constructor(validateKey: KeyValidator)
      ensures Valid() && items == map[] && this.validateKey == validateKey
    {
      items := map[];
      this.validateKey := validateKey;
    }

    /** What `set(key, value, extra, ttl)` resolves or rejects with. It does
        not depend on what is stored. */
    function SetOutcome(key: string, value: Value, extra: Value, ttl: Value): (r: Result<Item>)
      ensures CheckTtl(ttl).Fail? ==> r == Err(CheckTtl(ttl).message)
      ensures CheckTtl(ttl).Pass? ==> r == CreateItem(key, value, ttl, extra, validateKey)
      ensures r.Ok? ==> GoodEntry(key, r.value) && r.value.value == value
      ensures r.Ok? && ttl != Undef ==> r.value.ttl == ttl
      ensures r.Ok? && extra != Undef ==> r.value.extra == extra
      ensures validateKey(key).Pass? && ttl == Undef && extra == Undef ==>
                r == Ok(Item(key, value, Num(ONE_HOUR_IN_SECONDS), Obj([])))
    {
      match CheckTtl(ttl)
      case Fail(m) => Err(m)
      case Pass => CreateItem(key, value, ttl, extra, validateKey)
    }

    /** `get`: the stored item, or `null` (`None`) when the key is absent. */
    method Get(key: string) returns (r: Option<Item>)
      ensures r == if key in items then Some(items[key]) else None
    {
      var present := Has(key);
      r := if present then Some(items[key]) else None;
    }

    /** `set`: on success the item replaces only the entry under `key`; on
        rejection nothing is stored. */
    method Set(key: string, value: Value, extra: Value, ttl: Value) returns (r: Result<Item>)
      requires Valid()
      modifies this
      ensures Valid()
      ensures r == SetOutcome(key, value, extra, ttl)
      ensures items == if r.Ok? then old(items)[key := r.value] else old(items)
    {
      var check := CheckTtl(ttl);
      if check.Fail? {
        return Err(check.message);
      }
      r := CreateItem(key, value, ttl, extra, validateKey);
      assert r == SetOutcome(key, value, extra, ttl);
      if r.Ok? {
        items := items[key := r.value];
      }
    }

    /** `has`: whether `key` is stored. */
    method Has(key: string) returns (present: bool)
      ensures present <==> key in items
    {
      present := key in items;
    }

    /** `delete`: reports whether `key` was stored and removes only that
        entry. */
    method Delete(key: string) returns (removed: bool)
      requires Valid()
      modifies this
      ensures Valid()
      ensures removed == (key in old(items))
      ensures items == old(items) - {key}
      ensures !removed ==> items == old(items)
    {
      removed := Has(key);
      if removed {
        items := items - {key};
      }
    }

    /** `clear`: reports how many keys were stored and empties the store. */
    method Clear() returns (count: nat)
      requires Valid()
      modifies this
      ensures Valid()
      ensures count == |old(items)|
      ensures items == map[]
    {
      count := |items|;
      items := map[];
    }
  }
}

=== FILE: register_plugins.dfy ===
/** src/registerPlugins.js: plugins add hooks to a cache instance and extend
    it with new methods. All hooks are registered first, in place, on the
    instance's own table; the extensions are then merged plugin by plugin
    into fresh records. */
module RegisterPlugins {
  import opened JsValue
  import opened CreateCache

  const CACHE_INSTANCE_NOT_OBJECT := "`cacheInstance` must be an object."
  const PLUGINS_NOT_ARRAY := "`plugins` need to be passed as an array."
  const PLUGIN_WITHOUT_CONTENT := "Plugin must contain hooks or getExtensions method or both."
  const GET_EXTENSIONS_NOT_FUNCTION := "`getExtensions` must be a function."
  /** What the engine throws when the instance has no `addHooks` method of a
      cache instance. */
  const ADD_HOOKS_NOT_FUNCTION := "cacheInstance.addHooks is not a function"

  function AlreadyExists(name: string): string {
    "Extension '" + name + "' already exists."
  }

  /** A plugin's `getExtensions`: a function from the instance to the object
      of its new methods, or a value that is not a function. */
  datatype Provider = Creates(create: Value -> seq<Field>) | NotCallable(v: NonFunction)

  /** A plugin; `None` stands for a property the plugin does not own. */
  datatype Plugin = Plugin(hooks: Option<HookList>, getExtensions: Option<Provider>)

  /** The `plugins` argument: an array of plugins, or a value that is not an
      array. */
  datatype PluginList = Plugins(list: seq<Plugin>) | NotPluginArray(v: NonArray)

  // ---------------------------------------------------------------------
  // Validation

  /** `validateCacheInstance`: exactly the non-null, non-array objects. */
  function ValidateCacheInstance(cacheInstance: Value): (r: Outcome)
    ensures r == Pass <==> cacheInstance.Obj?
    ensures r != Pass ==> r == Fail(CACHE_INSTANCE_NOT_OBJECT)
  {
    if !IsNonArrayObject(cacheInstance) then Fail(CACHE_INSTANCE_NOT_OBJECT) else Pass
  }

  predicate HasContent(plugin: Plugin) {
    plugin.hooks.Some? || plugin.getExtensions.Some?
  }

  /** `validatePlugins`: an array, each of whose plugins owns `hooks` or
      `getExtensions` or both. */
  function ValidatePlugins(plugins: PluginList): (r: Outcome)
    ensures r == Pass <==> plugins.Plugins? && forall p :: p in plugins.list ==> HasContent(p)
    ensures !plugins.Plugins? ==> r == Fail(PLUGINS_NOT_ARRAY)
    ensures plugins.Plugins? && r != Pass ==> r == Fail(PLUGIN_WITHOUT_CONTENT)
  {
    if !plugins.Plugins? then Fail(PLUGINS_NOT_ARRAY)
    else if exists i :: 0 <= i < |plugins.list| && !HasContent(plugins.list[i]) then Fail(PLUGIN_WITHOUT_CONTENT)
    else Pass
  }

  // ---------------------------------------------------------------------
  // Hooks

  /** `plugin.hooks`: `undefined` when the plugin does not own `hooks`. */
  function HooksArg(plugin: Plugin): HookList {
    if plugin.hooks.Some? then plugin.hooks.value else NotHookArray(Undef)
  }

  /** `addHooksFromPlugins` on the instance's table: `addHooks` with each
      plugin's `hooks`, in plugin order, until one call throws. */
  function AddHooksFromPlugins(hooks: HookTable, plugins: seq<Plugin>): Applied
    decreases |plugins|
  {
    if plugins == [] then Applied(hooks, Pass)
    else
      var step := AddHooksTo(hooks, HooksArg(plugins[0]));
      if step.status.Fail? then step else AddHooksFromPlugins(step.table, plugins[1..])
  }

  lemma {:induction false} AddHooksFromPluginsAppend(hooks: HookTable, xs: seq<Plugin>, ys: seq<Plugin>)
    ensures AddHooksFromPlugins(hooks, xs + ys) ==
      var first := AddHooksFromPlugins(hooks, xs);
      if first.status.Fail? then first else AddHooksFromPlugins(first.table, ys)
    decreases |xs|
  {
    if xs == [] {
      assert xs + ys == ys;
    } else {
      assert (xs + ys)[0] == xs[0] && (xs + ys)[1..] == xs[1..] + ys;
      var step := AddHooksTo(hooks, HooksArg(xs[0]));
      if step.status == Pass {
        AddHooksFromPluginsAppend(step.table, xs[1..], ys);
      }
    }
  }

  /** The hooks of the plugins, one array after the other. */
  function AllHooks(plugins: seq<Plugin>): seq<Hook>
    requires forall p :: p in plugins ==> HooksArg(p).HookArray?
  {
    if plugins == [] then [] else HooksArg(plugins[0]).hooks + AllHooks(plugins[1..])
  }

  /** When every plugin has a hook array, registering them is adding all
      their hooks in plugin order and, within a plugin, in array order. */
  lemma {:induction false} PluginHooksAreAddedInOrder(hooks: HookTable, plugins: seq<Plugin>)
    requires forall p :: p in plugins ==> HooksArg(p).HookArray?
    ensures AddHooksFromPlugins(hooks, plugins) == AddEach(hooks, AllHooks(plugins))
    decreases |plugins|
  {
    if plugins != [] {
      assert plugins[0] in plugins;
      var own := HooksArg(plugins[0]).hooks;
      AddEachAppend(hooks, own, AllHooks(plugins[1..]));
      var step := AddEach(hooks, own);
      if step.status == Pass {
        PluginHooksAreAddedInOrder(step.table, plugins[1..]);
      }
    }
  }

  /** A plugin that owns no `hooks` passes `undefined` to `addHooks`, which
      refuses it; the plugins before it have had their hooks added. */
  lemma PluginWithoutHooksStopsRegistration(hooks: HookTable, plugins: seq<Plugin>, i: nat)
    requires i < |plugins| && plugins[i].hooks.None?
    requires AddHooksFromPlugins(hooks, plugins[..i]).status == Pass
    ensures AddHooksFromPlugins(hooks, plugins) ==
            Applied(AddHooksFromPlugins(hooks, plugins[..i]).table, Fail(HOOKS_NOT_ARRAY))
  {
    AddHooksFromPluginsAppend(hooks, plugins[..i], plugins[i..]);
    assert plugins[..i] + plugins[i..] == plugins;
    assert plugins[i..][0] == plugins[i];
  }

  // ---------------------------------------------------------------------
  // Extensions

  /** The first of `names` that is also in `reserved`. */
  function FirstCollision(names: seq<string>, reserved: seq<string>): (r: Option<string>)
    ensures r.None? <==> forall n :: n in names ==> n !in reserved
    ensures r.Some? ==> r.value in names && r.value in reserved
    ensures r.Some? ==> exists i :: 0 <= i < |names| && names[i] == r.value && forall j :: 0 <= j < i ==> names[j] !in reserved
  {
    if names == [] then None
    else if names[0] in reserved then Some(names[0])
    else
      var rest := FirstCollision(names[1..], reserved);
      assert forall n :: n in names ==> n == names[0] || n in names[1..];
      if rest.Some? then
        var i :| 0 <= i < |names[1..]| && names[1..][i] == rest.value && forall j :: 0 <= j < i ==> names[1..][j] !in reserved;
        assert names[i + 1] == rest.value;
        rest
      else
        rest
  }

  /** `addExtensions`: refuses a `getExtensions` that is not a function,
      calls it once with the instance, refuses the first created name the
      instance already has, and otherwise returns a fresh record holding the
      instance's properties followed by the created ones. */
  function AddExtensions(instance: seq<Field>, provider: Provider): (r: Result<seq<Field>>)
    ensures !provider.Creates? ==> r == Err(GET_EXTENSIONS_NOT_FUNCTION)
    ensures provider.Creates? ==>
              var created := provider.create(Obj(instance));
              var collision := FirstCollision(Names(created), Names(instance));
              && (collision.Some? ==> r == Err(AlreadyExists(collision.value)))
              && (collision.None? ==> r.Ok? && forall m :: m in Names(r.value) <==> m in Names(instance) || m in Names(created))
  {
    if !provider.Creates? then Err(GET_EXTENSIONS_NOT_FUNCTION)
    else
      var created := provider.create(Obj(instance));
      match FirstCollision(Names(created), Names(instance))
      case Some(name) => Err(AlreadyExists(name))
      case None => Ok(Assign(Assign([], instance), created))
  }

  lemma {:induction false} NamesAppend(xs: seq<Field>, ys: seq<Field>)
    ensures Names(xs + ys) == Names(xs) + Names(ys)
  {
  }

  /** For records without repeated keys, a merge appends the created
      properties, in their order, after the instance's own. */
  lemma ExtensionsAreAppended(instance: seq<Field>, provider: Provider)
    requires Distinct(Names(instance)) && provider.Creates?
    requires Distinct(Names(provider.create(Obj(instance))))
    requires AddExtensions(instance, provider).Ok?
    ensures AddExtensions(instance, provider).value == instance + provider.create(Obj(instance))
  {
    var created := provider.create(Obj(instance));
    CopyIsIdentity(instance);
    NamesAppend(instance, created);
    var all := Names(instance + created);
    forall i, j | 0 <= i < j < |all| ensures all[i] != all[j] {
      if j < |instance| {
      } else if i >= |instance| {
        assert all[i] == Names(created)[i - |instance|] && all[j] == Names(created)[j - |instance|];
      } else {
        assert all[j] == Names(created)[j - |instance|] && all[j] in Names(created);
        assert all[i] == Names(instance)[i];
      }
    }
    AssignOntoFreshKeys(instance, created);
  }

  /** A merge keeps every property of the instance, with its value, and never
      repeats a key. */
  lemma MergeKeepsInstance(instance: seq<Field>, provider: Provider)
    requires Distinct(Names(instance)) && AddExtensions(instance, provider).Ok?
    ensures Distinct(Names(AddExtensions(instance, provider).value))
    ensures forall m :: m in Names(instance) ==> Lookup(AddExtensions(instance, provider).value, m) == Lookup(instance, m)
  {
    var created := provider.create(Obj(instance));
    CopyIsIdentity(instance);
    AssignKeepsKeysDistinct(instance, created);
  }

  /** `if (plugin.getExtensions)`: the plugin takes part in the merge when its
      `getExtensions` is truthy. */
  predicate Contributes(plugin: Plugin) {
    plugin.getExtensions.Some? && (plugin.getExtensions.value.Creates? || Truthy(plugin.getExtensions.value.v))
  }

  function ApplyPlugin(instance: seq<Field>, plugin: Plugin): Result<seq<Field>> {
    if Contributes(plugin) then AddExtensions(instance, plugin.getExtensions.value) else Ok(instance)
  }

  /** `addExtensionsFromPlugins`: the `reduce` over the plugins, starting
      from the instance; the first error ends it. */
  function AddExtensionsFromPlugins(instance: seq<Field>, plugins: seq<Plugin>): Result<seq<Field>>
    decreases |plugins|
  {
    if plugins == [] then Ok(instance)
    else
      var next :- ApplyPlugin(instance, plugins[0]);
      AddExtensionsFromPlugins(next, plugins[1..])
  }

  /** The plugins are applied left to right: the last one sees the record
      all the others produced. */
  lemma {:induction false} ExtensionsFoldLeftToRight(instance: seq<Field>, plugins: seq<Plugin>, last: Plugin)
    ensures AddExtensionsFromPlugins(instance, plugins + [last]) ==
      match AddExtensionsFromPlugins(instance, plugins)
      case Err(m) => Err(m)
      case Ok(acc) => ApplyPlugin(acc, last)
    decreases |plugins|
  {
    if plugins == [] {
      assert plugins + [last] == [last];
    } else {
      assert (plugins + [last])[0] == plugins[0] && (plugins + [last])[1..] == plugins[1..] + [last];
      match ApplyPlugin(instance, plugins[0])
      case Err(_) =>
      case Ok(next) => ExtensionsFoldLeftToRight(next, plugins[1..], last);
    }
  }

  /** When no plugin has a truthy `getExtensions`, the instance itself is
      returned. */
  lemma {:induction false} NoExtensionsKeepInstance(instance: seq<Field>, plugins: seq<Plugin>)
    requires forall p :: p in plugins ==> !Contributes(p)
    ensures AddExtensionsFromPlugins(instance, plugins) == Ok(instance)
    decreases |plugins|
  {
    if plugins != [] {
      assert plugins[0] in plugins;
      assert forall p :: p in plugins[1..] ==> p in plugins;
      NoExtensionsKeepInstance(instance, plugins[1..]);
    }
  }

  /** The record the merge produces keeps every property of the instance with
      its value. In particular it holds the instance's own `getHooks` and
      `buildKey` closures, so the extended record reads and writes the very
      hook table of the original instance. */
  lemma {:induction false} ExtendedRecordKeepsInstance(instance: seq<Field>, plugins: seq<Plugin>)
    requires Distinct(Names(instance)) && AddExtensionsFromPlugins(instance, plugins).Ok?
    ensures Distinct(Names(AddExtensionsFromPlugins(instance, plugins).value))
    ensures forall m :: m in Names(instance) ==>
              Lookup(AddExtensionsFromPlugins(instance, plugins).value, m) == Lookup(instance, m)
    decreases |plugins|
  {
    if plugins != [] {
      var next := ApplyPlugin(instance, plugins[0]).value;
      if Contributes(plugins[0]) {
        MergeKeepsInstance(instance, plugins[0].getExtensions.value);
      }
      ExtendedRecordKeepsInstance(next, plugins[1..]);
      assert forall m :: m in Names(instance) ==> m in Names(next);
    }
  }

  /** A record extended from a cache instance's record is still a record of
      that instance: hooks added through either are seen by both. */
  lemma ExtendedRecordSharesHookTable(cache: Cache, plugins: seq<Plugin>)
    requires AddExtensionsFromPlugins(cache.Record().fields, plugins).Ok?
    ensures cache.RecordOf(Obj(AddExtensionsFromPlugins(cache.Record().fields, plugins).value))
  {
    var instance := cache.Record().fields;
    ExtendedRecordKeepsInstance(instance, plugins);
    assert Get(cache.Record(), "getHooks") != Undef && Get(cache.Record(), "buildKey") != Undef;
  }

  /** A name an earlier plugin created is reserved for the later ones. */
  lemma EarlierExtensionsAreReserved(instance: seq<Field>, first: Plugin, second: Plugin, name: string)
    requires Contributes(first) && ApplyPlugin(instance, first).Ok?
    requires first.getExtensions.value.Creates? && name in Names(first.getExtensions.value.create(Obj(instance)))
    requires second.getExtensions.Some? && second.getExtensions.value.Creates?
    requires name in Names(second.getExtensions.value.create(Obj(ApplyPlugin(instance, first).value)))
    ensures AddExtensionsFromPlugins(instance, [first, second]).Err?
  {
    var acc := ApplyPlugin(instance, first).value;
    assert name in Names(acc);
    assert [first, second][1..] == [second];
    assert [second][1..] == [];
  }

  /** One step of `forEach`: after the first `i` plugins' hooks went
      through onto `table`, the next plugin's `addHooks` either throws, which
      ends the whole call, or goes through. */
  lemma AddHooksFromPluginsStep(hooks: HookTable, plugins: seq<Plugin>, i: nat, table: HookTable)
    requires i < |plugins| && AddHooksFromPlugins(hooks, plugins[..i]) == Applied(table, Pass)
    ensures var step := AddHooksTo(table, HooksArg(plugins[i]));
            && (step.status.Fail? ==> AddHooksFromPlugins(hooks, plugins) == step)
            && (step.status == Pass ==> AddHooksFromPlugins(hooks, plugins[..i + 1]) == step)
  {
    AddHooksFromPluginsAppend(hooks, plugins[..i], plugins[i..]);
    assert plugins[..i] + plugins[i..] == plugins;
    assert plugins[i..][0] == plugins[i];
    AddHooksFromPluginsAppend(hooks, plugins[..i], [plugins[i]]);
    assert plugins[..i] + [plugins[i]] == plugins[..i + 1];
    assert [plugins[i]][1..] == [];
  }

  /** `addHooksFromPlugins` on a cache instance: its table ends as the fold
      leaves it, with or without an error. */
  method AddPluginHooks(cache: Cache, plugins: seq<Plugin>) returns (r: Outcome)
    modifies cache
    ensures Applied(cache.hooks, r) == AddHooksFromPlugins(old(cache.hooks), plugins)
  {
    ghost var start := cache.hooks;
    var i := 0;
    while i < |plugins|
      invariant 0 <= i <= |plugins|
      invariant AddHooksFromPlugins(start, plugins[..i]) == Applied(cache.hooks, Pass)
    {
      AddHooksFromPluginsStep(start, plugins, i, cache.hooks);
      var outcome := cache.AddHooks(HooksArg(plugins[i]));
      if outcome.Fail? {
        return outcome;
      }
      i := i + 1;
    }
    assert plugins[..i] == plugins;
    r := Pass;
  }

  // ---------------------------------------------------------------------
  // registerPlugins

  /** The cache instance whose `addHooks` (and `addHook`) closures the record
      holds, if any. */
  function Registrar(cacheInstance: Value): Option<Cache> {
    var addHooks := Get(cacheInstance, "addHooks");
    if addHooks.Method? && addHooks.name == "addHooks" && addHooks.owner is Cache &&
       Get(cacheInstance, "addHook") == Method(addHooks.owner, "addHook")
    then Some(addHooks.owner as Cache)
    else None
  }

  function RegistrarSet(cacheInstance: Value): set<object> {
    if Registrar(cacheInstance).Some? then {Registrar(cacheInstance).value} else {}
  }

  /** The value `registerPlugins` returns once the hooks are added. */
  function ExtensionsResult(instance: seq<Field>, plugins: seq<Plugin>): Result<Value> {
    match AddExtensionsFromPlugins(instance, plugins)
    case Ok(fields) => Ok(Obj(fields))
    case Err(m) => Err(m)
  }

  /** `registerPlugins`: validates the instance, then the plugins; passes
      every plugin's `hooks` to the instance's `addHooks`, in plugin order,
      before any extension is created, so hooks stay added when a later step
      throws; then merges the extensions. */
  method Register(cacheInstance: Value, plugins: PluginList) returns (r: Result<Value>)
    modifies RegistrarSet(cacheInstance)
    ensures !cacheInstance.Obj? ==> r == Err(CACHE_INSTANCE_NOT_OBJECT)
    ensures cacheInstance.Obj? && ValidatePlugins(plugins).Fail? ==> r == Err(ValidatePlugins(plugins).message)
    ensures (!cacheInstance.Obj? || ValidatePlugins(plugins).Fail?) && Registrar(cacheInstance).Some? ==>
              Registrar(cacheInstance).value.hooks == old(Registrar(cacheInstance).value.hooks)
    ensures cacheInstance.Obj? && ValidatePlugins(plugins) == Pass && plugins.list != [] &&
            Registrar(cacheInstance).None? ==>
              r == Err(ADD_HOOKS_NOT_FUNCTION)
    ensures cacheInstance.Obj? && ValidatePlugins(plugins) == Pass && plugins.list == [] ==>
              r == Ok(cacheInstance)
    ensures cacheInstance.Obj? && ValidatePlugins(plugins) == Pass && Registrar(cacheInstance).Some? ==>
              var added := AddHooksFromPlugins(old(Registrar(cacheInstance).value.hooks), plugins.list);
              && Registrar(cacheInstance).value.hooks == added.table
              && (added.status.Fail? ==> r == Err(added.status.message))
              && (added.status == Pass ==> r == ExtensionsResult(cacheInstance.fields, plugins.list))
  {
    var validation := ValidateCacheInstance(cacheInstance);
    if validation.Fail? {
      return Err(validation.message);
    }
    validation := ValidatePlugins(plugins);
    if validation.Fail? {
      return Err(validation.message);
    }
    var list := plugins.list;
    var registrar := Registrar(cacheInstance);
    if registrar.Some? {
      var added := AddPluginHooks(registrar.value, list);
      if added.Fail? {
        return Err(added.message);
      }
    } else if list != [] {
      return Err(ADD_HOOKS_NOT_FUNCTION);
    }
    r := ExtensionsResult(cacheInstance.fields, list);
  }
}

=== FILE: stash_it.dfy ===
/** src/createCache.ts: `StashIt`, which forwards every call to the adapter
    it was built with. The adapter is the in-memory store. */
module StashItCache {
  import opened JsValue
  import opened CreateItemTs
  import opened MemoryStore

  class StashIt {
    /** `#adapter`: set once by the constructor and never reassigned. */
    const adapter: MemoryAdapter

    constructor(adapter: MemoryAdapter)
      ensures this.adapter == adapter
    {
      this.adapter := adapter;
    }

    method Get(key: string) returns (r: Option<Item>)
      ensures r == if key in adapter.items then Some(adapter.items[key]) else None
    {
      r := adapter.Get(key);
    }

    /** `set(key, value, extra = {}, ttl)`: the adapter always receives an
        object `extra`, and `key`, `value` and `ttl` unchanged. */
    method Set(key: string, value: Value, extra: Value, ttl: Value) returns (r: Result<Item>)
      requires adapter.Valid()
      modifies adapter
      ensures adapter.Valid()
      ensures r == adapter.SetOutcome(key, value, OrDefault(extra, Obj([])), ttl)
      ensures adapter.items == if r.Ok? then old(adapter.items)[key := r.value] else old(adapter.items)
    {
      r := adapter.Set(key, value, OrDefault(extra, Obj([])), ttl);
    }

    method Has(key: string) returns (present: bool)
      ensures present <==> key in adapter.items
    {
      present := adapter.Has(key);
    }

    method Delete(key: string) returns (removed: bool)
      requires adapter.Valid()
      modifies adapter
      ensures adapter.Valid()
      ensures removed == (key in old(adapter.items))
      ensures adapter.items == old(adapter.items) - {key}
    {
      removed := adapter.Delete(key);
    }

    method Clear() returns (count: nat)
      requires adapter.Valid()
      modifies adapter
      ensures adapter.Valid()
      ensures count == |old(adapter.items)| && adapter.items == map[]
    {
      count := adapter.Clear();
    }
  }

  /** Over a fresh in-memory store: `set(k, v)` stores `{key, value, extra:
      {}, ttl: 3600}`, after which `has(k)` is true, `delete(k)` is true,
      `has(k)` is false and a second `delete(k)` is false. */
  method SetHasDeleteScenario(validateKey: KeyValidator, key: string, value: Value)
    returns (stored: Result<Item>, found: Option<Item>, hadIt: bool, deleted: bool, hasAfter: bool, deletedAgain: bool)
    requires validateKey(key).Pass?
    ensures stored == Ok(Item(key, value, Num(ONE_HOUR_IN_SECONDS), Obj([])))
    ensures found == Some(stored.value)
    ensures hadIt && deleted && !hasAfter && !deletedAgain
  {
    var memory := new MemoryAdapter(validateKey);
    var cache := new StashIt(memory);
    stored := cache.Set(key, value, Undef, Undef);
    found := cache.Get(key);
    hadIt := cache.Has(key);
    deleted := cache.Delete(key);
    hasAfter := cache.Has(key);
    deletedAgain := cache.Delete(key);
  }
}

=== FILE: validate_extra_ts.dfy ===
/** src/validators/validateExtra.ts: the TypeScript generation's check on
    an item's `extra`. */
module ValidateExtraTs {
  import opened JsValue
  import Validation

  const EXTRA_NOT_OBJECT := "'extra' must be an object."

  /** Accepts every non-null, non-array object (`{}` included) and nothing
      else; the error message is the single-quoted one. */
  function ValidateExtra(extra: Value): (r: Outcome)
    ensures r == Pass <==> extra.Obj?
    ensures r != Pass ==> r == Fail(EXTRA_NOT_OBJECT)
  {
    if !IsNonArrayObject(extra) then Fail(EXTRA_NOT_OBJECT) else Pass
  }

  /** Strings, numbers, booleans, `undefined`, `null`, arrays and functions
      are all refused. */
  lemma RejectsEveryNonObject(s: string, n: real, b: bool, items: seq<Value>, id: nat)
    ensures ValidateExtra(Str(s)) == Fail(EXTRA_NOT_OBJECT)
    ensures ValidateExtra(Num(n)) == Fail(EXTRA_NOT_OBJECT)
    ensures ValidateExtra(Bool(b)) == Fail(EXTRA_NOT_OBJECT)
    ensures ValidateExtra(Undef) == Fail(EXTRA_NOT_OBJECT)
    ensures ValidateExtra(Null) == Fail(EXTRA_NOT_OBJECT)
    ensures ValidateExtra(Arr(items)) == Fail(EXTRA_NOT_OBJECT)
    ensures ValidateExtra(Func(id)) == Fail(EXTRA_NOT_OBJECT)
    ensures ValidateExtra(Obj([])) == Pass
  {
  }

  /** The TypeScript check accepts exactly what the JavaScript one in
      src/validation.js accepts; only the quoting of the message differs. */
  lemma AgreesWithJavaScriptCheck(extra: Value)
    ensures ValidateExtra(extra).Pass? <==> Validation.ValidateExtra(extra).Pass?
  {
  }
}

=== FILE: validation.dfy ===
/** The argument checks of src/validation.js. src/createCache.js carries
    verbatim copies of validateAdapter, validateArgs and validateMethodName,
    and the model uses these definitions for both files. Each check returns
    normally (`Pass`) or throws an `Error` (`Fail`); none of them changes
    anything. */
module Validation {
  import opened JsValue

  const ADAPTER_NOT_OBJECT := "`adapter` must be an object."
  const METHODS_MISSING := "Not all required methods are present in adapter."
  const METHODS_NOT_FUNCTIONS := "Not all required methods are functions."
  const ARGS_NOT_OBJECT := "`args` must be an object."
  const ARGS_WITHOUT_INSTANCE := "`args` must contain `cacheInstance` property."
  const METHOD_NAME_NOT_STRING := "`methodName` must be a string."
  const EXTRA_NOT_OBJECT := "`extra` must be an object."

  /** The shape guard every validator opens with. */
  lemma NonArrayObjectIsObj(v: Value)
    ensures IsNonArrayObject(v) <==> v.Obj?
  {
  }

  /** Every name in `requiredMethods` is an own key of the adapter. */
  predicate AllRequiredPresent(adapter: Value, requiredMethods: seq<string>) {
    forall m :: m in requiredMethods ==> m in Keys(adapter)
  }

  /** Every own key of the adapter, required or not, holds a function. */
  predicate AllKeysAreFunctions(adapter: Value) {
    forall k :: k in Keys(adapter) ==> IsFunction(Get(adapter, k))
  }

  /** `validateAdapter`: a non-array object whose own keys include every
      required method and all hold functions. A missing method is reported
      before a property that is not a function. */
  function ValidateAdapter(adapter: Value, requiredMethods: seq<string>): (r: Outcome)
    ensures r == Pass <==>
      adapter.Obj? && AllRequiredPresent(adapter, requiredMethods) && AllKeysAreFunctions(adapter)
    ensures !adapter.Obj? ==> r == Fail(ADAPTER_NOT_OBJECT)
    ensures adapter.Obj? && !AllRequiredPresent(adapter, requiredMethods) ==> r == Fail(METHODS_MISSING)
    ensures adapter.Obj? && AllRequiredPresent(adapter, requiredMethods) && !AllKeysAreFunctions(adapter) ==>
              r == Fail(METHODS_NOT_FUNCTIONS)
  {
    if !IsNonArrayObject(adapter) then Fail(ADAPTER_NOT_OBJECT)
    else if !AllRequiredPresent(adapter, requiredMethods) then Fail(METHODS_MISSING)
    else if !AllKeysAreFunctions(adapter) then Fail(METHODS_NOT_FUNCTIONS)
    else Pass
  }

  /** An adapter with every required method is still refused when any other
      own property is not a function. */
  lemma ExtraPropertyMustBeAFunction(adapter: Value, requiredMethods: seq<string>, k: string)
    requires adapter.Obj? && AllRequiredPresent(adapter, requiredMethods)
    requires k in Keys(adapter) && k !in requiredMethods && !IsFunction(Get(adapter, k))
    ensures ValidateAdapter(adapter, requiredMethods) == Fail(METHODS_NOT_FUNCTIONS)
  {
  }

  /** `validateArgs`: a non-array object with a truthy `cacheInstance`. */
  function ValidateArgs(args: Value): (r: Outcome)
    ensures r == Pass <==> args.Obj? && Truthy(Get(args, "cacheInstance"))
    ensures !args.Obj? ==> r == Fail(ARGS_NOT_OBJECT)
    ensures args.Obj? && !Truthy(Get(args, "cacheInstance")) ==> r == Fail(ARGS_WITHOUT_INSTANCE)
  {
    if !IsNonArrayObject(args) then Fail(ARGS_NOT_OBJECT)
    else if !Truthy(Get(args, "cacheInstance")) then Fail(ARGS_WITHOUT_INSTANCE)
    else Pass
  }

  /** `validateMethodName`: exactly the strings. */
  function ValidateMethodName(methodName: Value): (r: Outcome)
    ensures r == Pass <==> methodName.Str?
    ensures r != Pass ==> r == Fail(METHOD_NAME_NOT_STRING)
  {
    if TypeOf(methodName) != "string" then Fail(METHOD_NAME_NOT_STRING) else Pass
  }

  /** `validateExtra`: exactly the non-null, non-array values whose `typeof`
      is 'object'; functions are refused. */
  function ValidateExtra(extra: Value): (r: Outcome)
    ensures r == Pass <==> extra.Obj?
    ensures r != Pass ==> r == Fail(EXTRA_NOT_OBJECT)
  {
    if !IsNonArrayObject(extra) then Fail(EXTRA_NOT_OBJECT) else Pass
  }
}
